=== FILE: README.md ===
# Wisdora landing pages: a Dafny model of the page scripts

This project models the client-side scripts of the Wisdora landing pages in
Dafny and proves what they promise.

**First landing page** (`1/assets/landingpage1.js`):
- The reveal-on-scroll rule. Elements marked `.reveal` get `active` while in
  view. A phone-sized window reveals each element once; a wider window hides
  it again when it leaves the view.
- The animated canvas background. It covers:
  - the capability profile (`isMobile`, `lowEnd`) and the capped pixel ratio;
  - the canvas buffer size;
  - drifting particles and bouncing, rotating hexagons;
  - `initParticles`, `connectParticles` and one `animate` frame;
  - the two resize listeners.
- The required-field check on submit. It takes each value as typed.

**Second landing page** (`1/assets/landingpage2.js`):
- the background slider;
- the FAQ accordion;
- the count-up animation and the observer that starts it;
- the one-shot `fade-in-up` animation;
- the required-field check on submit, which trims each value first.

**Site script** (`1/script.js`):
- the consultation form's check, border colours and reset;
- the mobile menu;
- in-page anchor navigation.

How the model is built:
- **Element state.** An element is a `Dom.Element` object whose class list is
  a set of class names. The handlers change it in place through `Add`,
  `Remove`, `Toggle` and `Replace`, which follow `classList`.
- **Observer batches.** A batch of IntersectionObserver entries is a sequence
  of `Dom.Entry` values. The reveal and scroll-animation callbacks loop over
  the batch. The reveal callback is proved against a function that folds each
  element's entries in order. The scroll-animation callback is proved against
  the set of elements seen intersecting. The counters' callback looks only at
  the first entry, as the script does.
- **Outside values.** Randomness and trigonometry become inputs:
  - Each `Math.random()` result is an element of a sequence `draws` of reals
    in [0, 1), consumed in the order the script evaluates them.
  - `Math.sin` is a function parameter `wave`.
- **Window and device.** The viewport, the device pixel ratio and the
  hardware hints are parameters.
- **Numbers.** They are mathematical reals. Where the browser converts a
  number on assignment (`canvas.width`), the conversion is written out:
  truncation, then modulo 2^32, then the element's default (300 wide, 150
  high) in place of any result above 2^31 - 1.
- **Strings.** `String.prototype.trim` is written out over ECMAScript's
  white-space and line-terminator characters (`Text.Trim`).

How the background treats a resize:
- `isMobile` is computed once, at load; a resize re-runs `initParticles` with
  it, so the particle and hexagon counts do not follow the new window width.
- `lowEnd` is fixed at load too, so the 50-pixel connection threshold is never
  used: the pair step only runs when the device is not low-end.

## Model

| member | source | states |
|---|---|---|
| Background.AbsentHintsKeepProfile | 1/assets/landingpage1.js:62-65 | With neither hardware hint reported, the device is low-end exactly on a phone-sized window |
| Background.HintsOnlyLowerProfile | 1/assets/landingpage1.js:62-65 | A hint of 0 counts as a missing hint, and reporting a hint can only make the profile low-end, never undo it |
| Background.HintLowersProfile | 1/assets/landingpage1.js:64-65 | On a wide window, one reported hint makes the device low-end exactly when it is non-zero and at most 4 |
| Background.Dpr | 1/assets/landingpage1.js:46 | The pixel ratio is at most 2: a missing or zero ratio gives 1, a ratio up to 2 is kept, a larger one is capped at 2 |
| Background.BufferSize | 1/assets/landingpage1.js:51-52 | The stored buffer size is at most 2^31 - 1; a scaled size below 2^31 is stored truncated to a whole number, and one that wraps past 2^31 - 1 (a size in [2^31, 2^32), or a negative size from -1 down to just above -2^31) gives the element's default |
| Background.Surface.constructor | 1/assets/landingpage1.js:46-58 | At load the canvas buffer is the window size times the pixel ratio, the CSS size is the window size, and drawing is scaled by the ratio |
| Background.Surface.Resize | 1/assets/landingpage1.js:49-56 | `resizeCanvas` sets the buffer, the CSS size and the drawing scale from the new window size and the pixel ratio fixed at load |
| Background.Scaled | 1/assets/landingpage1.js:159-160 | A random position lies inside [0, extent], and strictly below a non-zero extent |
| Background.Speed | 1/assets/landingpage1.js:150-152 | A particle's speed lies in [0.15, 0.35) on a low-end device and in [0.3, 0.6) otherwise |
| Background.Amplitude | 1/assets/landingpage1.js:153-155 | A particle's amplitude lies in [10, 20) on a low-end device and in [20, 35) otherwise |
| Background.Frequency | 1/assets/landingpage1.js:163 | A particle's frequency lies in [0.01, 0.025) |
| Background.Size | 1/assets/landingpage1.js:103 | A hexagon's size lies in [12, 24) |
| Background.Velocity | 1/assets/landingpage1.js:104-105 | Each velocity component of a hexagon lies in [-0.1, 0.1) |
| Background.Angle | 1/assets/landingpage1.js:106 | A hexagon's starting angle lies in [0, 2π) |
| Background.RotationSpeed | 1/assets/landingpage1.js:107 | A hexagon's rotation per frame lies in [-0.0025, 0.0025) |
| Background.DriftStaysInView | 1/assets/landingpage1.js:82-85 | A particle inside [0, width] moving right stays inside it, and lands on 0 exactly when it passed the right edge (or stays at 0) |
| Background.BounceKeepsNearView | 1/assets/landingpage1.js:110-117 | A hexagon inside the window, or one step beyond an edge and heading back, is still so after a move and a bounce |
| Background.Particle.constructor | 1/assets/landingpage1.js:71-79 | A new particle stores its arguments, and its wave baseline is its starting y |
| Background.Particle.Update | 1/assets/landingpage1.js:81-86 | x moves on by the speed and wraps to 0 past the right edge; y follows the wave at the moved x; a particle inside the window stays inside |
| Background.Shape.constructor | 1/assets/landingpage1.js:100-108 | A new hexagon takes its seven fields from seven draws in evaluation order, and every field is in its range |
| Background.Shape.Update | 1/assets/landingpage1.js:110-117 | The hexagon moves by its velocity and turns by its rotation speed; each velocity component flips exactly when the new position is outside the window on that axis |
| Background.AllPairsFacts | 1/assets/landingpage1.js:178-179 | The nested loop visits n(n-1)/2 pairs: every (i, j) with i < j < n, each exactly once |
| Background.CloseFacts | 1/assets/landingpage1.js:180-184 | A visited pair gets a line exactly when its squared distance is below the threshold |
| Background.ConnectionsExactly | 1/assets/landingpage1.js:176-193 | The lines of one pass are exactly the pairs i < j of particles closer than the threshold |
| Background.PairsBeforeLength | 1/assets/landingpage1.js:178-179 | Before row i the loop has visited i(2n-i-1)/2 pairs |
| Background.PairsBeforeMembers | 1/assets/landingpage1.js:178-179 | Before row i the loop has visited exactly the pairs (a, b) with a < i and a < b < n |
| Background.PairsBeforeSorted | 1/assets/landingpage1.js:178-179 | The pairs come in strictly increasing lexicographic order, which is why none is repeated |
| Background.CloseAppend | 1/assets/landingpage1.js:178-192 | The lines of the whole loop are the lines of each row, row after row |
| Background.Animator.constructor | 1/assets/landingpage1.js:46-65 | Start-up fixes the profile from the load-time window, sizes the canvas and makes the first population, every object new and in its range |
| Background.Start | 1/assets/landingpage1.js:215-216 | `initParticles(); animate();`: a new animator, whose canvas, particles and hexagons are new objects too, so later frames and resizes can run on it; it has the load-time counts, and its first frame visits every pair i < j (none on a low-end device) and draws exactly the close ones |
| Background.Animator.InitParticles | 1/assets/landingpage1.js:144-173 | Both lists are replaced by fresh objects: 20/6 on a phone-sized load and 60/20 otherwise; particles take five draws each, then hexagons seven each |
| Background.Animator.SpawnParticles | 1/assets/landingpage1.js:148-167 | Particle i is made from draws 5i..5i+4 in evaluation order (speed, amplitude, x, y, frequency), with the low-end radius |
| Background.Animator.SpawnShapes | 1/assets/landingpage1.js:169-172 | Hexagon j is made from draws 7j..7j+6 |
| Background.Animator.ConnectParticles | 1/assets/landingpage1.js:176-194 | The pass visits all pairs i < j in loop order and draws a line for the close ones; no particle changes |
| Background.Animator.ConnectRow | 1/assets/landingpage1.js:179-192 | The inner loop for i visits (i, i+1) … (i, n-1) and draws a line for the close ones |
| Background.Animator.IsClose | 1/assets/landingpage1.js:180-184 | The check compares dx² + dy² of the two particles with the threshold |
| Background.Animator.Animate | 1/assets/landingpage1.js:197-211 | One frame moves every particle once, runs the pair step only when not low-end (zero checks otherwise), then moves every hexagon once |
| Background.Animator.MoveParticles | 1/assets/landingpage1.js:200-205 | The particles move, then the pair step sees the moved positions |
| Background.Animator.UpdateParticles | 1/assets/landingpage1.js:200-203 | Each particle makes exactly one `update` move |
| Background.Animator.UpdateShapes | 1/assets/landingpage1.js:207-210 | Each hexagon makes exactly one `update` move; the particles stay where they are |
| Background.Animator.OnResize | 1/assets/landingpage1.js:219 | A resize resizes the canvas, then repopulates with the counts of the load-time `isMobile` |
| Dom.Element.Add | 1/assets/landingpage1.js:21 | `classList.add` puts the class in and changes nothing else |
| Dom.Element.Remove | 1/assets/landingpage1.js:27 | `classList.remove` takes the class out and changes nothing else |
| Dom.Element.Toggle | 1/script.js:58 | `classList.toggle` flips the class and reports whether it is now present |
| Dom.Element.Replace | 1/assets/landingpage2.js:32 | `classList.replace` swaps the classes only when the first is present, and reports whether it was |
| Text.Trim | 1/assets/landingpage2.js:142 | A trimmed value is no longer than the value, and has no white space at either end |
| Text.TrimStartFacts | 1/assets/landingpage2.js:142 | Leading trimming keeps a suffix and cuts only white space |
| Text.TrimEndFacts | 1/assets/landingpage2.js:142 | Trailing trimming keeps a prefix and cuts only white space |
| Text.TrimIsSlice | 1/assets/landingpage2.js:142 | What `trim` keeps is one contiguous slice of the value, with only white space cut on either side |
| Text.TrimEmptyIffBlank | 1/script.js:20 | A value trims to "" exactly when it is empty or all white space |
| Text.TrimKeepsTidy | 1/assets/landingpage2.js:147 | Trimming leaves a value with no white space at its ends unchanged |
| LandingOne.MobileRevealSticks | 1/assets/landingpage1.js:20-24 | On a phone an element has `active` after a run of entries exactly when it had it before or some entry saw it intersect |
| LandingOne.DesktopFollowsLastEntry | 1/assets/landingpage1.js:20-28 | On a wider window an element has `active` exactly when its last entry saw it intersect |
| LandingOne.RevealKeepsOtherClasses | 1/assets/landingpage1.js:19-29 | The rule never touches any class but `active` |
| LandingOne.RevealObserver.constructor | 1/assets/landingpage1.js:15-34 | The observer watches every `.reveal` element and takes `isMobile` from the load-time window |
| LandingOne.RevealObserver.Deliver | 1/assets/landingpage1.js:19-28 | One entry: an intersecting element gets `active` and, on a phone, is no longer watched; otherwise a wide window takes `active` away. Every element of the batch stays at the rule folded over its entries so far, and the watch set stays the batch's starting set less the intersecting elements so far (on a phone) |
| LandingOne.RevealObserver.Callback | 1/assets/landingpage1.js:17-32 | After a batch, each element's classes are the rule applied to its own entries in order; on a phone every element seen intersecting is no longer watched |
| RequiredForm.FilledMeans | 1/assets/landingpage2.js:142 | Without trimming a field is filled exactly when its value is non-empty; with trimming, exactly when the value is not all white space |
| RequiredForm.UntrimmedAcceptsSpaces | 1/assets/landingpage1.js:233 | The first page's check accepts exactly the non-empty all-white-space values the second page's check refuses; on every other value the two agree |
| RequiredForm.Border | 1/assets/landingpage1.js:233-237 | A field's border is red exactly when it is not filled, grey exactly when it is |
| RequiredForm.GatherSpec | 1/assets/landingpage1.js:238 | `formData` holds a name exactly when some visited field wrote a non-empty value under it, and the value is that of the last such field |
| RequiredForm.CollectSpec | 1/assets/landingpage2.js:141-149 | `formData` holds a name exactly when some filled field has it, with the cleaned value of the last filled field of that name |
| RequiredForm.RequiredFields.Submit | 1/assets/landingpage1.js:228-249 | Every field gets the border its own value calls for and no value changes; the form is valid exactly when every field is filled; it redirects exactly when valid |
| LandingTwo.NextSlide | 1/assets/landingpage2.js:33 | The next slide index stays below the number of slides and wraps from the last slide to the first |
| LandingTwo.TicksAdvance | 1/assets/landingpage2.js:31-35 | After k ticks the slider is k places further round the ring |
| LandingTwo.FullCycleReturns | 1/assets/landingpage2.js:31-35 | After as many ticks as there are slides, the starting slide is back |
| LandingTwo.Slider.constructor | 1/assets/landingpage2.js:27-29 | The slider runs only with at least one slide and starts at the first |
| LandingTwo.Slider.Tick | 1/assets/landingpage2.js:31-35 | The old slide swaps `opacity-100` for `opacity-0`, the index moves on, and the new slide swaps back; no other slide changes; a slider that shows exactly its current slide before the tick shows exactly its new current slide after it |
| LandingTwo.Accordion.Click | 1/assets/landingpage2.js:47-63 | Every item closes and every icon turns back, then the clicked item opens if it was closed; afterwards at most one item is open and each icon is turned exactly when its item is open |
| LandingTwo.Accordion.CloseItem | 1/assets/landingpage2.js:51-56 | One visit of the inner loop closes that item and turns its icon back |
| LandingTwo.Progress | 1/assets/landingpage2.js:80-81 | Progress is at most 1, is 1 exactly when the duration has passed, and is not negative for a non-negative elapsed time |
| LandingTwo.EaseBounds | 1/assets/landingpage2.js:82 | The ease-out curve maps 0 to 0 and 1 to 1, and on [0, 1] lies between the straight line and 1 |
| LandingTwo.EaseMonotonic | 1/assets/landingpage2.js:82 | The ease-out curve never goes down on [0, 1] |
| LandingTwo.CounterFrame | 1/assets/landingpage2.js:79-90 | Another frame is requested exactly while the duration has not passed; the last frame writes the target itself |
| LandingTwo.CounterClimbs | 1/assets/landingpage2.js:80-83 | While it runs, a counter shows a value between 0 and its target, and never less than in an earlier frame |
| LandingTwo.CounterTrigger.constructor | 1/assets/landingpage2.js:96-106 | The container is watched and no counter has started |
| LandingTwo.CounterTrigger.Callback | 1/assets/landingpage2.js:96-104 | The counters start at most once: when the first entry intersects, and then the container is no longer watched |
| LandingTwo.ScrollReveal.constructor | 1/assets/landingpage2.js:112-126 | The observer watches every `.animate-on-scroll` element |
| LandingTwo.ScrollReveal.Deliver | 1/assets/landingpage2.js:116-120 | An intersecting entry adds `fade-in-up` and stops watching its element; any other entry does nothing |
| LandingTwo.ScrollReveal.Callback | 1/assets/landingpage2.js:114-122 | After a batch, exactly the elements seen intersecting have gained `fade-in-up` and are no longer watched; an element that already had the class is unchanged |
| SiteScript.CheckColorMeans | 1/script.js:20-25 | A checked control turns red exactly when its value is blank and green exactly when it is not |
| SiteScript.ConsultationForm.Check | 1/script.js:17-27 | Every required `input` and `select` gets its check colour, the others keep theirs, and the form is valid exactly when none of them is blank |
| SiteScript.ConsultationForm.Reset | 1/script.js:36-41 | Every control is back at its default value, and every `input` and `select` gets the neutral colour |
| SiteScript.ConsultationForm.Submit | 1/script.js:13-47 | A valid form is reset with neutral colours; an invalid one keeps its values and the colours the check gave |
| SiteScript.MobileMenu.ButtonClick | 1/script.js:57-59 | A button click toggles `hidden` on the links |
| SiteScript.MobileMenu.LinkClick | 1/script.js:62-66 | A link click adds `hidden` to the links' classes and changes no other class |
| SiteScript.ToggleTwiceRestores | 1/script.js:57-59 | Two button clicks leave the links as they were |
| SiteScript.CloseIsIdempotent | 1/script.js:62-66 | After a link click (`Closed`, the effect `LinkClick` promises) the links are hidden, no other class has changed, and a further link click changes nothing |
| SiteScript.Navigate | 1/script.js:72-82 | A link `#id` scrolls to the element with that id when there is one and does nothing otherwise; `#` alone is a selector error |

## Left out

- Drawing is not modelled: `clearRect`, `arc`, `stroke`, the hexagon outline, colours and line widths. The model records the pairs a frame would connect.
- `requestAnimationFrame` scheduling is not modelled: one call of `Animate` is one frame. `setInterval`, `performance.now` and the counters' own frame loop are left out too; the elapsed time is a parameter of `CounterFrame`.
- Floating-point rounding is not modelled: positions, speeds and distances are exact reals. `Math.sin` is the injected `wave`, and `Math.PI` is its decimal value.
- The early return when the canvas or its 2D context is missing is left out: the model starts with a canvas.
- Registering listeners and observers is a constructor or a method per handler. `observe` is a set of watched elements.
- Entries the browser delivers are taken as given: the model does not check that it only reports watched elements.
- `AOS.init` is left out; it is an outside library.
- `alert`, `console.log` and the thank-you page URL are left out; the redirect is a boolean result.
- The counters' display formatting is left out: `toFixed(1)`, `Math.floor` and `parseFloat` of the target. `CounterFrame` returns the unformatted value.
- LandingTwo.CounterTrigger.Callback: only counts how often the counters start; the per-counter animations it launches are `CounterFrame`.
- The required fields are parallel sequences of names, values and borders, not separate element objects. The model does not capture two entries that are one element.
- `formData` is a map: the special behaviour of a JavaScript object key such as `__proto__` is not modelled.
- SiteScript.Navigate: treats everything after `#` as an id to look up. A `href` whose tail is not a valid CSS selector, such as `#1a`, throws in the browser; `#a.b` selects by id and class. Neither case is modelled.
- `scrollIntoView` options (smooth scrolling) are left out; `ScrollTo` names the target.
- The mobile menu exists only when both the button and the links exist; the model starts with both.
- The slider and the scroll animation are set up only when their elements exist; the `Slider` and `ScrollReveal` constructors require a non-empty set of elements. The counters' container is not modelled as an element: `CounterTrigger` stands for the observer that exists once the container is found.
- `lowEnd` and `isMobile` are booleans fixed at load, as in the code. The low-end threshold of 50 pixels is therefore never used.

=== FILE: background.dfy ===
/** The decorative canvas background of the first landing page: a capability
    profile taken once at load, a drawing surface sized to the window, drifting
    particles, slowly rotating hexagons, and the per-frame update that moves
    them and decides which particle pairs get a connecting line.

    Drawing calls themselves are not modelled; the model records what each
    frame would draw (the connected pairs) and how every object moves.
    Each `Math.random()` draw is an element of a sequence `draws` of reals in
    [0, 1), consumed in the order the script evaluates them; `Math.sin` is the
    injected function `wave`. */
module Background {
  import opened Dom

  datatype Option<T> = None | Some(value: T)

  /** `window.innerWidth` and `window.innerHeight`, in CSS pixels. */
  datatype Viewport = Viewport(width: nat, height: nat)

  /** Below this inner width the page counts as mobile. */
  const MobileBreakpoint: nat := 768

  /** `Math.PI`, by its decimal value. */
  const PI: real := 3.141592653589793

  /** `isMobile`, evaluated once when the script loads. */
  predicate IsMobile(innerWidth: nat) {
    innerWidth < MobileBreakpoint
  }

  /** JavaScript truthiness of an optional numeric hint: an absent hint
      (`undefined`) and a hint of 0 are both falsy. */
  predicate Truthy(hint: Option<real>) {
    hint.Some? && hint.value != 0.0
  }

  /** `lowEnd`: mobile, or a truthy `navigator.hardwareConcurrency` of at most
      4, or a truthy `navigator.deviceMemory` of at most 4. */
  predicate LowEnd(isMobile: bool, hardwareConcurrency: Option<real>, deviceMemory: Option<real>) {
    isMobile
    || (Truthy(hardwareConcurrency) && hardwareConcurrency.value <= 4.0)
    || (Truthy(deviceMemory) && deviceMemory.value <= 4.0)
  }

  /** With neither hint reported the profile is low-end exactly on mobile. */
  lemma AbsentHintsKeepProfile(isMobile: bool)
    ensures LowEnd(isMobile, None, None) <==> isMobile
  {
  }

  /** A hint of 0 is treated like a missing hint, and a missing hint never
      makes the profile low-end: whatever one hint says, the profile is at
      least as low-end as with that hint reported. */
  lemma HintsOnlyLowerProfile(isMobile: bool, hc: Option<real>, dm: Option<real>)
    ensures LowEnd(isMobile, Some(0.0), dm) <==> LowEnd(isMobile, None, dm)
    ensures LowEnd(isMobile, hc, Some(0.0)) <==> LowEnd(isMobile, hc, None)
    ensures LowEnd(isMobile, None, dm) ==> LowEnd(isMobile, hc, dm)
    ensures LowEnd(isMobile, hc, None) ==> LowEnd(isMobile, hc, dm)
  {
  }

  /** A reported hint lowers the profile exactly when it is non-zero and at most 4. */
  lemma HintLowersProfile(hc: real, dm: real)
    ensures LowEnd(false, Some(hc), None) <==> hc != 0.0 && hc <= 4.0
    ensures LowEnd(false, None, Some(dm)) <==> dm != 0.0 && dm <= 4.0
  {
  }

  /** `dpr = Math.min(window.devicePixelRatio || 1, 2)`, evaluated once. */
  function Dpr(devicePixelRatio: Option<real>): (d: real)
    ensures d <= 2.0
    ensures !Truthy(devicePixelRatio) ==> d == 1.0
    ensures Truthy(devicePixelRatio) && devicePixelRatio.value <= 2.0 ==> d == devicePixelRatio.value
    ensures Truthy(devicePixelRatio) && devicePixelRatio.value > 2.0 ==> d == 2.0
  {
    var ratio := if Truthy(devicePixelRatio) then devicePixelRatio.value else 1.0;
    if ratio < 2.0 then ratio else 2.0
  }

  /** The defaults the `<canvas>` element falls back to. */
  const DefaultWidth: nat := 300
  const DefaultHeight: nat := 150

  /** Assigning a length `logical * dpr` to `canvas.width`/`canvas.height`:
      the number is converted to a WebIDL `unsigned long` (truncated, then
      taken modulo 2^32), and since the attribute reflects a non-negative
      `unsigned long`, a result above 2^31 - 1 is replaced by the element's
      default `fallback`. */
  function BufferSize(logical: nat, dpr: real, fallback: nat): (n: nat)
    requires fallback <= 0x7FFF_FFFF
    ensures n <= 0x7FFF_FFFF
    ensures 0.0 <= logical as real * dpr < 0x8000_0000 as real ==> n as real <= logical as real * dpr < n as real + 1.0
    ensures 0x8000_0000 as real <= logical as real * dpr < 0x1_0000_0000 as real ==> n == fallback
    ensures -(0x8000_0000 as real) < logical as real * dpr <= -1.0 ==> n == fallback
  {
    var v := logical as real * dpr;
    var truncated := if v >= 0.0 then v.Floor else -((-v).Floor);
    var wrapped := truncated % 0x1_0000_0000;
    if wrapped <= 0x7FFF_FFFF then wrapped else fallback
  }

  /** The `<canvas>` element: its pixel buffer, its CSS size and the scale of
      its drawing transform. */
  class Surface {
    const dpr: real
    var width: nat
    var height: nat
    var styleWidth: nat
    var styleHeight: nat
    var scale: real

    /** The canvas as `resizeCanvas` leaves it at load. */
    constructor (dpr: real, viewport: Viewport)
      ensures this.dpr == dpr
      ensures width == BufferSize(viewport.width, dpr, DefaultWidth) && height == BufferSize(viewport.height, dpr, DefaultHeight)
      ensures styleWidth == viewport.width && styleHeight == viewport.height && scale == dpr
    {
      this.dpr := dpr;
      new;
      Resize(viewport);
    }

    /** `resizeCanvas`: the buffer is the window size times the `dpr` fixed at
        load, the CSS size is the window size, and drawing is scaled by `dpr`
        so that it is done in CSS pixels. */
    method Resize(viewport: Viewport)
      modifies this
      ensures width == BufferSize(viewport.width, dpr, DefaultWidth) && height == BufferSize(viewport.height, dpr, DefaultHeight)
      ensures styleWidth == viewport.width && styleHeight == viewport.height && scale == dpr
    {
      width := BufferSize(viewport.width, dpr, DefaultWidth);
      height := BufferSize(viewport.height, dpr, DefaultHeight);
      styleWidth := viewport.width;
      styleHeight := viewport.height;
      scale := dpr;
    }
  }

  /** A `Math.random()` result. */
  predicate IsDraw(r: real) {
    0.0 <= r < 1.0
  }

  /** A run of `Math.random()` results. */
  predicate AllDraws(d: seq<real>) {
    forall k :: 0 <= k < |d| ==> IsDraw(d[k])
  }

  /** `Math.random() * extent`: a position inside [0, extent). */
  function Scaled(r: real, extent: nat): (p: real)
    requires IsDraw(r)
    ensures 0.0 <= p <= extent as real
    ensures extent > 0 ==> p < extent as real
  {
    var e := extent as real;
    assert r * e <= e by {
      assert (1.0 - r) * e >= 0.0;
    }
    assert extent > 0 ==> r * e < e by {
      if extent > 0 {
        assert (1.0 - r) * e > 0.0;
      }
    }
    r * e
  }

  /** A particle's horizontal speed. */
  function Speed(lowEnd: bool, r: real): (s: real)
    requires IsDraw(r)
    ensures lowEnd ==> 0.15 <= s < 0.35
    ensures !lowEnd ==> 0.3 <= s < 0.6
  {
    if lowEnd then 0.15 + r * 0.2 else 0.3 + r * 0.3
  }

  /** A particle's oscillation amplitude. */
  function Amplitude(lowEnd: bool, r: real): (a: real)
    requires IsDraw(r)
    ensures lowEnd ==> 10.0 <= a < 20.0
    ensures !lowEnd ==> 20.0 <= a < 35.0
  {
    if lowEnd then 10.0 + r * 10.0 else 20.0 + r * 15.0
  }

  /** A particle's oscillation frequency. */
  function Frequency(r: real): (f: real)
    requires IsDraw(r)
    ensures 0.01 <= f < 0.025
  {
    0.01 + r * 0.015
  }

  /** A particle's radius: smaller on low-end devices. */
  function Radius(lowEnd: bool): real {
    if lowEnd then 1.5 else 2.0
  }

  /** A hexagon's size. */
  function Size(r: real): (s: real)
    requires IsDraw(r)
    ensures 12.0 <= s < 24.0
  {
    12.0 + r * 12.0
  }

  /** One component of a hexagon's velocity. */
  function Velocity(r: real): (v: real)
    requires IsDraw(r)
    ensures -0.1 <= v < 0.1
  {
    (r - 0.5) * 0.2
  }

  /** A hexagon's starting angle, in radians. */
  function Angle(r: real): (a: real)
    requires IsDraw(r)
    ensures 0.0 <= a < 2.0 * PI
  {
    r * PI * 2.0
  }

  /** A hexagon's rotation per frame, in radians. */
  function RotationSpeed(r: real): (w: real)
    requires IsDraw(r)
    ensures -0.0025 <= w < 0.0025
  {
    (r - 0.5) * 0.005
  }

  /** Where a particle's x goes in one frame: on by `speed`, and back to 0
      once it is past the window's right edge. */
  function Drift(x: real, speed: real, innerWidth: nat): real {
    if x + speed > innerWidth as real then 0.0 else x + speed
  }

  /** A particle's y at horizontal position x: `baseY + sin(x * frequency) * amplitude`,
      with `Math.sin` the injected `wave`. */
  function Height(baseY: real, amplitude: real, frequency: real, x: real, wave: real -> real): real {
    baseY + wave(x * frequency) * amplitude
  }

  /** A particle inside [0, width] that moves rightwards stays inside it, and
      it lands on 0 exactly when it would have passed the right edge (or
      stands on 0 already). */
  lemma DriftStaysInView(x: real, speed: real, innerWidth: nat)
    requires 0.0 <= x <= innerWidth as real && 0.0 <= speed
    ensures 0.0 <= Drift(x, speed, innerWidth) <= innerWidth as real
    ensures Drift(x, speed, innerWidth) == 0.0 <==> x + speed > innerWidth as real || x + speed == 0.0
  {
  }

  /** A velocity component after a hexagon has moved to `p` on that axis: it
      is reversed exactly when `p` lies outside [0, bound]. */
  function Bounce(p: real, v: real, bound: nat): real {
    if p < 0.0 || p > bound as real then -v else v
  }

  /** On one axis, a hexagon is inside [0, bound], or at most one step beyond
      an edge and heading back. */
  predicate NearView(p: real, v: real, bound: nat) {
    (0.0 <= p <= bound as real)
    || (bound as real < p <= bound as real - v && v < 0.0)
    || (-v <= p < 0.0 && 0.0 < v)
  }

  /** While the window keeps its size, one step of moving and bouncing keeps a
      hexagon near the window on that axis: reflection brings it back. */
  lemma BounceKeepsNearView(p: real, v: real, bound: nat)
    requires NearView(p, v, bound)
    ensures NearView(p + v, Bounce(p + v, v, bound), bound)
  {
  }

  /** One drifting point of light. */
  class Particle {
    var x: real
    var y: real
    const baseY: real
    const speed: real
    const amplitude: real
    const frequency: real
    const radius: real

    constructor (x: real, y: real, speed: real, amplitude: real, frequency: real, radius: real)
      ensures this.x == x && this.y == y && baseY == y
      ensures this.speed == speed && this.amplitude == amplitude
      ensures this.frequency == frequency && this.radius == radius
    {
      this.x := x;
      this.y := y;
      baseY := y;
      this.speed := speed;
      this.amplitude := amplitude;
      this.frequency := frequency;
      this.radius := radius;
    }

    /** `Particle.update`: x moves on by `speed`; y follows the wave at that
        new x, before the wrap; then x goes back to 0 past the right edge.
        Only x and y change. */
    method Update(viewport: Viewport, wave: real -> real)
      modifies this
      ensures Drifted(this, old(x), viewport, wave)
      ensures 0.0 <= old(x) <= viewport.width as real && 0.0 <= speed ==> 0.0 <= x <= viewport.width as real
    {
      var moved := x + speed;
      x := moved;
      y := Height(baseY, amplitude, frequency, moved, wave);
      if x > viewport.width as real {
        x := 0.0;
      }
      if 0.0 <= old(x) <= viewport.width as real && 0.0 <= speed {
        DriftStaysInView(old(x), speed, viewport.width);
      }
    }
  }

  /** One slowly rotating hexagon outline. */
  class Shape {
    var x: real
    var y: real
    const size: real
    var vx: real
    var vy: real
    var angle: real
    const rotationSpeed: real

    /** `new Shape()`: seven draws, in the order the constructor makes them. */
    constructor (viewport: Viewport, draws: seq<real>)
      requires |draws| == ShapeDraws && AllDraws(draws)
      ensures SpawnedShape(this, viewport, draws) && ShapeInRange(this, viewport)
    {
      x := Scaled(draws[0], viewport.width);
      y := Scaled(draws[1], viewport.height);
      size := Size(draws[2]);
      vx := Velocity(draws[3]);
      vy := Velocity(draws[4]);
      angle := Angle(draws[5]);
      rotationSpeed := RotationSpeed(draws[6]);
    }

    /** `Shape.update`: move by the velocity and turn by the rotation speed;
        then each velocity component is reversed when the new position is
        outside the window on its own axis, independently of the other. */
    method Update(viewport: Viewport)
      modifies this
      ensures Bounced(this, old(x), old(y), old(vx), old(vy), old(angle), viewport)
      ensures NearView(old(x), old(vx), viewport.width) ==> NearView(x, vx, viewport.width)
      ensures NearView(old(y), old(vy), viewport.height) ==> NearView(y, vy, viewport.height)
    {
      x := x + vx;
      y := y + vy;
      angle := angle + rotationSpeed;
      if x < 0.0 || x > viewport.width as real {
        vx := -vx;
      }
      if y < 0.0 || y > viewport.height as real {
        vy := -vy;
      }
      if NearView(old(x), old(vx), viewport.width) {
        BounceKeepsNearView(old(x), old(vx), viewport.width);
      }
      if NearView(old(y), old(vy), viewport.height) {
        BounceKeepsNearView(old(y), old(vy), viewport.height);
      }
    }
  }

  function ParticleCount(isMobile: bool): nat {
    if isMobile then 20 else 60
  }

  function ShapeCount(isMobile: bool): nat {
    if isMobile then 6 else 20
  }

  /** Draws one particle uses: speed, amplitude, x, y, frequency. */
  const ParticleDraws: nat := 5

  /** Draws one hexagon uses. */
  const ShapeDraws: nat := 7

  /** The draws `initParticles` consumes in all. */
  function DrawsNeeded(isMobile: bool): nat {
    ParticleDraws * ParticleCount(isMobile) + ShapeDraws * ShapeCount(isMobile)
  }

  /** A particle made from the five draws `d` (speed, amplitude, x, y,
      frequency, in that order). */
  ghost predicate SpawnedParticle(p: Particle, lowEnd: bool, viewport: Viewport, d: seq<real>)
    reads p
  {
    |d| == ParticleDraws && AllDraws(d)
    && p.speed == Speed(lowEnd, d[0]) && p.amplitude == Amplitude(lowEnd, d[1])
    && p.x == Scaled(d[2], viewport.width) && p.y == Scaled(d[3], viewport.height)
    && p.baseY == p.y && p.frequency == Frequency(d[4]) && p.radius == Radius(lowEnd)
  }

  /** A hexagon made from the seven draws `d` (x, y, size, vx, vy, angle,
      rotation speed, in that order). */
  ghost predicate SpawnedShape(s: Shape, viewport: Viewport, d: seq<real>)
    reads s
  {
    |d| == ShapeDraws && AllDraws(d)
    && s.x == Scaled(d[0], viewport.width) && s.y == Scaled(d[1], viewport.height)
    && s.size == Size(d[2]) && s.vx == Velocity(d[3]) && s.vy == Velocity(d[4])
    && s.angle == Angle(d[5]) && s.rotationSpeed == RotationSpeed(d[6])
  }

  /** The parameter ranges every freshly made particle falls in. */
  ghost predicate ParticleInRange(p: Particle, lowEnd: bool, viewport: Viewport)
    reads p
  {
    (if lowEnd then 0.15 <= p.speed < 0.35 else 0.3 <= p.speed < 0.6)
    && (if lowEnd then 10.0 <= p.amplitude < 20.0 else 20.0 <= p.amplitude < 35.0)
    && 0.01 <= p.frequency < 0.025
    && p.radius == (if lowEnd then 1.5 else 2.0)
    && p.baseY == p.y
    && 0.0 <= p.x <= viewport.width as real && 0.0 <= p.y <= viewport.height as real
  }

  /** The ranges every freshly made hexagon falls in. */
  ghost predicate ShapeInRange(s: Shape, viewport: Viewport)
    reads s
  {
    12.0 <= s.size < 24.0
    && -0.1 <= s.vx < 0.1 && -0.1 <= s.vy < 0.1
    && 0.0 <= s.angle < 2.0 * PI
    && -0.0025 <= s.rotationSpeed < 0.0025
    && 0.0 <= s.x <= viewport.width as real && 0.0 <= s.y <= viewport.height as real
  }

  /** Every index in `pairs` is below n: each pair names two of n particles. */
  predicate PairsWithin(pairs: seq<(nat, nat)>, n: nat) {
    forall k :: 0 <= k < |pairs| ==> pairs[k].0 < n && pairs[k].1 < n
  }

  /** Row i of the nested loop, up to (not including) j: (i, i+1), ..., (i, j-1). */
  function Row(i: nat, j: nat): (r: seq<(nat, nat)>)
    ensures |r| == if j > i then j - i - 1 else 0
    ensures forall k :: 0 <= k < |r| ==> r[k] == (i, i + 1 + k)
  {
    seq(if j > i then j - i - 1 else 0, k requires 0 <= k => (i, i + 1 + k))
  }

  /** All pairs the nested loop visits before its outer index reaches i. */
  function PairsBefore(i: nat, n: nat): seq<(nat, nat)> {
    if i == 0 then [] else PairsBefore(i - 1, n) + Row(i - 1, n)
  }

  /** The pairs one `connectParticles` call visits, in visiting order. */
  function AllPairs(n: nat): seq<(nat, nat)> {
    PairsBefore(n, n)
  }

  /** `dx * dx + dy * dy`. */
  function SqNorm(dx: real, dy: real): real {
    dx * dx + dy * dy
  }

  /** Squared distance between two positions. */
  function SqDist(p: (real, real), q: (real, real)): real {
    SqNorm(p.0 - q.0, p.1 - q.1)
  }

  /** `maxDist`: 50 squared on low-end devices, 80 squared otherwise. */
  function MaxDist(lowEnd: bool): real {
    if lowEnd then 2500.0 else 6400.0
  }

  /** The visited pairs that get a line, in the order they are drawn. */
  function Close(pairs: seq<(nat, nat)>, pos: seq<(real, real)>, maxDist: real): seq<(nat, nat)>
    requires PairsWithin(pairs, |pos|)
  {
    if pairs == [] then []
    else
      var last := pairs[|pairs| - 1];
      Close(pairs[..|pairs| - 1], pos, maxDist)
        + (if SqDist(pos[last.0], pos[last.1]) < maxDist then [last] else [])
  }

  /** Visiting one more pair adds it to the lines exactly when it is close. */
  lemma CloseSnoc(pairs: seq<(nat, nat)>, p: (nat, nat), pos: seq<(real, real)>, maxDist: real)
    requires PairsWithin(pairs, |pos|) && p.0 < |pos| && p.1 < |pos|
    ensures PairsWithin(pairs + [p], |pos|)
    ensures Close(pairs + [p], pos, maxDist)
      == Close(pairs, pos, maxDist) + (if SqDist(pos[p.0], pos[p.1]) < maxDist then [p] else [])
  {
    assert (pairs + [p])[..|pairs|] == pairs;
  }

  /** The lines of two runs of visits, one after the other, are the lines of
      the first run followed by those of the second. */
  lemma {:induction false} CloseAppend(s: seq<(nat, nat)>, r: seq<(nat, nat)>, pos: seq<(real, real)>, maxDist: real)
    requires PairsWithin(s, |pos|) && PairsWithin(r, |pos|)
    ensures PairsWithin(s + r, |pos|)
    ensures Close(s + r, pos, maxDist) == Close(s, pos, maxDist) + Close(r, pos, maxDist)
  {
    if r != [] {
      var front, last := r[..|r| - 1], r[|r| - 1];
      assert r == front + [last];
      assert PairsWithin(front, |pos|);
      CloseAppend(s, front, pos, maxDist);
      CloseSnoc(s + front, last, pos, maxDist);
      CloseSnoc(front, last, pos, maxDist);
      assert s + r == (s + front) + [last];
    } else {
      assert s + r == s;
    }
  }

  /** Row i up to j only holds pairs of indices below j. */
  lemma RowWithin(i: nat, j: nat, n: nat)
    requires j <= n
    ensures PairsWithin(Row(i, j), n)
  {
  }

  /** The inner loop's next visit extends the row by (i, j), and the lines by
      (i, j) exactly when that pair is close. */
  lemma RowStep(i: nat, j: nat, pos: seq<(real, real)>, maxDist: real)
    requires i < j < |pos|
    ensures PairsWithin(Row(i, j), |pos|) && PairsWithin(Row(i, j + 1), |pos|)
    ensures Row(i, j + 1) == Row(i, j) + [(i, j)]
    ensures Close(Row(i, j + 1), pos, maxDist)
         == Close(Row(i, j), pos, maxDist) + (if SqDist(pos[i], pos[j]) < maxDist then [(i, j)] else [])
  {
    RowWithin(i, j, |pos|);
    CloseSnoc(Row(i, j), (i, j), pos, maxDist);
    RowSnoc(i, j);
  }

  /** Row i up to j + 1 is row i up to j followed by (i, j). */
  lemma RowSnoc(i: nat, j: nat)
    requires i < j
    ensures Row(i, j + 1) == Row(i, j) + [(i, j)]
  {
    var r, s := Row(i, j + 1), Row(i, j) + [(i, j)];
    assert |r| == |s|;
    forall k | 0 <= k < |r| ensures r[k] == s[k] {
      if k < |r| - 1 {
        assert s[k] == Row(i, j)[k];
      }
    }
  }

  /** Where the particles are. */
  ghost function Positions(ps: seq<Particle>): (pos: seq<(real, real)>)
    reads set p | p in ps
    ensures |pos| == |ps|
    ensures forall i :: 0 <= i < |ps| ==> pos[i] == (ps[i].x, ps[i].y)
  {
    if ps == [] then [] else Positions(ps[..|ps| - 1]) + [(ps[|ps| - 1].x, ps[|ps| - 1].y)]
  }

  /** Row i up to j holds the pairs (i, b) with i < b < j, one per b. */
  lemma RowFacts(i: nat, j: nat)
    ensures forall p :: p in Row(i, j) <==> p.0 == i && i < p.1 < j
  {
    forall p: (nat, nat) | p.0 == i && i < p.1 < j
      ensures p in Row(i, j)
    {
      assert Row(i, j)[p.1 - i - 1] == p;
    }
  }

  /** Row i lists its pairs in increasing order. */
  lemma RowSorted(i: nat, j: nat)
    ensures SortedLex(Row(i, j))
  {
  }

  /** Moving one factor of a product by one, both ways. */
  lemma ShiftProduct(i: int, m: int)
    ensures (i - 1) * m == i * m - m
    ensures i * (m - 1) == i * m - i
  {
  }

  /** There are i(2n - i - 1)/2 pairs before row i. */
  lemma {:induction false} PairsBeforeLength(i: nat, n: nat)
    requires i <= n
    ensures 2 * |PairsBefore(i, n)| == i * (2 * n - i - 1)
  {
    if i > 0 {
      PairsBeforeLength(i - 1, n);
      RowFacts(i - 1, n);
      assert |PairsBefore(i, n)| == |PairsBefore(i - 1, n)| + |Row(i - 1, n)|;
      ShiftProduct(i, 2 * n - i);
    }
  }

  /** The pairs before row i are the (a, b) with a < i and a < b < n. */
  lemma {:induction false} PairsBeforeMembers(i: nat, n: nat)
    ensures forall p :: p in PairsBefore(i, n) <==> p.0 < i && p.0 < p.1 < n
  {
    if i > 0 {
      var s, r := PairsBefore(i - 1, n), Row(i - 1, n);
      PairsBeforeMembers(i - 1, n);
      RowFacts(i - 1, n);
      forall p: (nat, nat) ensures p in s + r <==> p.0 < i && p.0 < p.1 < n {
        assert p in s + r <==> p in s || p in r;
      }
    }
  }

  /** The pairs before row i come in strictly increasing lexicographic order. */
  lemma {:induction false} PairsBeforeSorted(i: nat, n: nat)
    ensures SortedLex(PairsBefore(i, n))
  {
    if i > 0 {
      var s, r := PairsBefore(i - 1, n), Row(i - 1, n);
      PairsBeforeSorted(i - 1, n);
      RowSorted(i - 1, n);
      forall x, y | x in s && y in r ensures Lex(x, y) {
        PairsBeforeMembers(i - 1, n);
        RowFacts(i - 1, n);
      }
      SortedConcat(s, r);
    }
  }

  /** Lexicographic order on pairs of indices. */
  predicate Lex(p: (nat, nat), q: (nat, nat)) {
    p.0 < q.0 || (p.0 == q.0 && p.1 < q.1)
  }

  /** `s` lists its pairs in strictly increasing lexicographic order. */
  predicate SortedLex(s: seq<(nat, nat)>) {
    forall a, b :: 0 <= a < b < |s| ==> Lex(s[a], s[b])
  }

  /** Two sorted lists, every pair of the first below every pair of the
      second, make a sorted list. */
  lemma SortedConcat(s: seq<(nat, nat)>, r: seq<(nat, nat)>)
    requires SortedLex(s) && SortedLex(r)
    requires forall x, y :: x in s && y in r ==> Lex(x, y)
    ensures SortedLex(s + r)
  {
    forall a, b | 0 <= a < b < |s + r| ensures Lex((s + r)[a], (s + r)[b]) {
      if b < |s| {
        assert (s + r)[a] == s[a] && (s + r)[b] == s[b];
      } else if a < |s| {
        assert (s + r)[a] == s[a] && (s + r)[b] == r[b - |s|];
        assert s[a] in s && r[b - |s|] in r;
      } else {
        assert (s + r)[a] == r[a - |s|] && (s + r)[b] == r[b - |s|];
      }
    }
  }

  /** `connectParticles` visits every unordered pair {i, j} of the n particles
      exactly once, as (i, j) with i < j, which makes n(n-1)/2 checks. */
  lemma AllPairsFacts(n: nat)
    ensures 2 * |AllPairs(n)| == n * (n - 1)
    ensures forall p :: p in AllPairs(n) <==> p.0 < p.1 < n
    ensures Distinct(AllPairs(n))
    ensures PairsWithin(AllPairs(n), n)
  {
    PairsBeforeLength(n, n);
    PairsBeforeMembers(n, n);
    PairsBeforeSorted(n, n);
    var s := AllPairs(n);
    forall k | 0 <= k < |s| ensures s[k].0 < n && s[k].1 < n {
      assert s[k] in s;
    }
    forall a, b | 0 <= a < b < |s| ensures s[a] != s[b] {
      assert Lex(s[a], s[b]);
    }
  }

  /** A visited pair gets a line exactly when its squared distance is below
      the threshold. */
  lemma {:induction false} CloseFacts(pairs: seq<(nat, nat)>, pos: seq<(real, real)>, maxDist: real)
    requires PairsWithin(pairs, |pos|)
    ensures forall p :: p in Close(pairs, pos, maxDist) <==> p in pairs && SqDist(pos[p.0], pos[p.1]) < maxDist
  {
    if pairs != [] {
      var front := pairs[..|pairs| - 1];
      CloseFacts(front, pos, maxDist);
      assert pairs == front + [pairs[|pairs| - 1]];
    }
  }

  /** One frame's lines: exactly the pairs i < j of particles closer than
      the threshold, each drawn once. */
  lemma ConnectionsExactly(pos: seq<(real, real)>, maxDist: real)
    ensures PairsWithin(AllPairs(|pos|), |pos|)
    ensures forall p :: (p in Close(AllPairs(|pos|), pos, maxDist)
                         <==> p.0 < p.1 < |pos| && SqDist(pos[p.0], pos[p.1]) < maxDist)
  {
    AllPairsFacts(|pos|);
    CloseFacts(AllPairs(|pos|), pos, maxDist);
  }

  /** Particle `p`, which stood at `x0`, has made one `update` move. */
  ghost predicate Drifted(p: Particle, x0: real, viewport: Viewport, wave: real -> real)
    reads p
  {
    p.x == Drift(x0, p.speed, viewport.width)
    && p.y == Height(p.baseY, p.amplitude, p.frequency, x0 + p.speed, wave)
  }

  /** Hexagon `s`, which had position (x0, y0), velocity (vx0, vy0) and angle
      a0, has made one `update` move. */
  ghost predicate Bounced(s: Shape, x0: real, y0: real, vx0: real, vy0: real, a0: real, viewport: Viewport)
    reads s
  {
    s.x == x0 + vx0 && s.y == y0 + vy0 && s.angle == a0 + s.rotationSpeed
    && s.vx == Bounce(s.x, vx0, viewport.width) && s.vy == Bounce(s.y, vy0, viewport.height)
  }

  /** The animated background: the profile fixed at load, the canvas, and
      the current particles and hexagons. */
  class Animator {
    const isMobile: bool
    const lowEnd: bool
    const surface: Surface
    var particles: seq<Particle>
    var shapes: seq<Shape>

    ghost predicate Valid()
      reads this
    {
      Distinct(particles) && Distinct(shapes)
    }

    /** The script's start-up: profile, canvas size, first population. */
    constructor (viewport: Viewport, devicePixelRatio: Option<real>,
                 hardwareConcurrency: Option<real>, deviceMemory: Option<real>, draws: seq<real>)
      requires |draws| == DrawsNeeded(IsMobile(viewport.width)) && AllDraws(draws)
      ensures Valid()
      ensures isMobile == IsMobile(viewport.width)
      ensures lowEnd == LowEnd(isMobile, hardwareConcurrency, deviceMemory)
      ensures surface.dpr == Dpr(devicePixelRatio)
      ensures surface.width == BufferSize(viewport.width, surface.dpr, DefaultWidth)
      ensures surface.height == BufferSize(viewport.height, surface.dpr, DefaultHeight)
      ensures |particles| == ParticleCount(isMobile) && |shapes| == ShapeCount(isMobile)
      ensures fresh(surface)
      ensures forall i :: 0 <= i < |particles| ==> fresh(particles[i]) && ParticleInRange(particles[i], lowEnd, viewport)
      ensures forall j :: 0 <= j < |shapes| ==> fresh(shapes[j]) && ShapeInRange(shapes[j], viewport)
    {
      var mobile := IsMobile(viewport.width);
      isMobile := mobile;
      surface := new Surface(Dpr(devicePixelRatio), viewport);
      lowEnd := LowEnd(mobile, hardwareConcurrency, deviceMemory);
      new;
      InitParticles(viewport, draws);
    }

    /** `initParticles`: both lists are replaced by fresh ones whose sizes
        follow the `isMobile` of start-up, not the current window. The
        particles take the first draws, five each; the hexagons the rest,
        seven each. */
    method InitParticles(viewport: Viewport, draws: seq<real>)
      requires |draws| == DrawsNeeded(isMobile) && AllDraws(draws)
      modifies this
      ensures Valid()
      ensures |particles| == ParticleCount(isMobile) && |shapes| == ShapeCount(isMobile)
      ensures forall i :: 0 <= i < |particles| ==> fresh(particles[i])
      ensures forall j :: 0 <= j < |shapes| ==> fresh(shapes[j])
      ensures forall i :: 0 <= i < |particles| ==>
        SpawnedParticle(particles[i], lowEnd, viewport, draws[5 * i..5 * i + 5])
        && ParticleInRange(particles[i], lowEnd, viewport)
      ensures forall j :: 0 <= j < |shapes| ==>
        SpawnedShape(shapes[j], viewport, draws[5 * |particles| + 7 * j..5 * |particles| + 7 * j + 7])
        && ShapeInRange(shapes[j], viewport)
    {
      var split := ParticleDraws * ParticleCount(isMobile);
      SpawnParticles(viewport, draws[..split]);
      SpawnShapes(viewport, draws[split..]);
      assert forall i :: 0 <= i < |particles| ==> draws[..split][5 * i..5 * i + 5] == draws[5 * i..5 * i + 5];
      assert forall j :: 0 <= j < |shapes| ==> draws[split..][7 * j..7 * j + 7] == draws[split + 7 * j..split + 7 * j + 7];
    }

    /** The first loop of `initParticles`: `particles = []`, then one new
        particle per five draws. */
    method SpawnParticles(viewport: Viewport, draws: seq<real>)
      requires |draws| == ParticleDraws * ParticleCount(isMobile) && AllDraws(draws)
      modifies this`particles
      ensures Distinct(particles) && |particles| == ParticleCount(isMobile)
      ensures forall i :: 0 <= i < |particles| ==> fresh(particles[i])
      ensures forall i :: 0 <= i < |particles| ==>
        SpawnedParticle(particles[i], lowEnd, viewport, draws[5 * i..5 * i + 5])
        && ParticleInRange(particles[i], lowEnd, viewport)
    {
      particles := [];
      for i := 0 to ParticleCount(isMobile)
        invariant |particles| == i
        invariant Distinct(particles)
        invariant forall a :: 0 <= a < i ==> fresh(particles[a])
        invariant forall a :: 0 <= a < i ==>
          SpawnedParticle(particles[a], lowEnd, viewport, draws[5 * a..5 * a + 5])
          && ParticleInRange(particles[a], lowEnd, viewport)
      {
        var d := draws[5 * i..5 * i + 5];
        assert AllDraws(d);
        var speed := Speed(lowEnd, d[0]);
        var amplitude := Amplitude(lowEnd, d[1]);
        var p := new Particle(Scaled(d[2], viewport.width), Scaled(d[3], viewport.height),
                              speed, amplitude, Frequency(d[4]), Radius(lowEnd));
        particles := particles + [p];
      }
    }

    /** The second loop of `initParticles`: `shapes = []`, then one new
        hexagon per seven draws. */
    method SpawnShapes(viewport: Viewport, draws: seq<real>)
      requires |draws| == ShapeDraws * ShapeCount(isMobile) && AllDraws(draws)
      modifies this`shapes
      ensures Distinct(shapes) && |shapes| == ShapeCount(isMobile)
      ensures forall j :: 0 <= j < |shapes| ==> fresh(shapes[j])
      ensures forall j :: 0 <= j < |shapes| ==>
        SpawnedShape(shapes[j], viewport, draws[7 * j..7 * j + 7]) && ShapeInRange(shapes[j], viewport)
    {
      shapes := [];
      for j := 0 to ShapeCount(isMobile)
        invariant |shapes| == j
        invariant Distinct(shapes)
        invariant forall b :: 0 <= b < j ==> fresh(shapes[b])
        invariant forall b :: 0 <= b < j ==>
          SpawnedShape(shapes[b], viewport, draws[7 * b..7 * b + 7]) && ShapeInRange(shapes[b], viewport)
      {
        var d := draws[7 * j..7 * j + 7];
        assert AllDraws(d);
        var s := new Shape(viewport, d);
        shapes := shapes + [s];
      }
    }

    /** `connectParticles`: the nested loop over pairs i < j. It returns the
        pairs it checks and the pairs it draws a line for, and changes nothing. */
    method ConnectParticles() returns (visited: seq<(nat, nat)>, lines: seq<(nat, nat)>)
      ensures visited == AllPairs(|particles|)
      ensures PairsWithin(visited, |particles|)
      ensures lines == Close(visited, Positions(particles), MaxDist(lowEnd))
    {
      var n := |particles|;
      ghost var pos := Positions(particles);
      visited, lines := [], [];
      var i := 0;
      while i < n
        invariant 0 <= i <= n
        invariant visited == PairsBefore(i, n)
        invariant PairsWithin(visited, n)
        invariant lines == Close(visited, pos, MaxDist(lowEnd))
      {
        var row, rowLines := ConnectRow(i);
        CloseAppend(visited, row, pos, MaxDist(lowEnd));
        visited, lines := visited + row, lines + rowLines;
        i := i + 1;
      }
    }

    /** The inner loop of `connectParticles` for one i: the pairs (i, j) with
        i < j, each checked once against `maxDist`; `lines` are the pairs of
        the row that get a line. */
    method ConnectRow(i: nat) returns (row: seq<(nat, nat)>, lines: seq<(nat, nat)>)
      requires i < |particles|
      ensures row == Row(i, |particles|)
      ensures PairsWithin(row, |particles|)
      ensures lines == Close(row, Positions(particles), MaxDist(lowEnd))
    {
      var maxDist := MaxDist(lowEnd);
      var n := |particles|;
      ghost var pos := Positions(particles);
      assert |pos| == n;
      RowWithin(i, i + 1, n);
      row, lines := [], [];
      var j: nat := i + 1;
      while j < n
        invariant i + 1 <= j <= n == |pos|
        invariant row == Row(i, j) && PairsWithin(row, |pos|)
        invariant lines == Close(row, pos, maxDist)
      {
        var close := IsClose(i, j, maxDist);
        RowStep(i, j, pos, maxDist);
        row := row + [(i, j)];
        if close {
          lines := lines + [(i, j)];
        }
        j := j + 1;
      }
    }

    /** The check of one pair: `dx * dx + dy * dy < maxDist`. */
    method IsClose(i: nat, j: nat, maxDist: real) returns (close: bool)
      requires i < |particles| && j < |particles|
      ensures close <==> SqDist(Positions(particles)[i], Positions(particles)[j]) < maxDist
    {
      var dx := particles[i].x - particles[j].x;
      var dy := particles[i].y - particles[j].y;
      close := SqNorm(dx, dy) < maxDist;
    }

    /** `animate`, one frame: every particle moves once, then (only when not
        low-end) the pair step runs on the moved particles, then every hexagon
        moves once. The result is what the pair step visited and drew. */
    method Animate(viewport: Viewport, wave: real -> real) returns (visited: seq<(nat, nat)>, lines: seq<(nat, nat)>)
      requires Valid()
      modifies particles, shapes
      ensures forall k :: 0 <= k < |particles| ==> Drifted(particles[k], old(particles[k].x), viewport, wave)
      ensures forall k :: 0 <= k < |shapes| ==>
        Bounced(shapes[k], old(shapes[k].x), old(shapes[k].y), old(shapes[k].vx), old(shapes[k].vy), old(shapes[k].angle), viewport)
      ensures visited == if lowEnd then [] else AllPairs(|particles|)
      ensures PairsWithin(visited, |particles|)
      ensures lines == if lowEnd then [] else Close(visited, Positions(particles), MaxDist(lowEnd))
    {
      visited, lines := MoveParticles(viewport, wave);
      UpdateShapes(viewport);
    }

    /** The first part of a frame: every particle moves once, then the pair
        step runs unless the device is low-end. */
    method MoveParticles(viewport: Viewport, wave: real -> real) returns (visited: seq<(nat, nat)>, lines: seq<(nat, nat)>)
      requires Distinct(particles)
      modifies particles
      ensures forall k :: 0 <= k < |particles| ==> Drifted(particles[k], old(particles[k].x), viewport, wave)
      ensures visited == if lowEnd then [] else AllPairs(|particles|)
      ensures PairsWithin(visited, |particles|)
      ensures lines == if lowEnd then [] else Close(visited, Positions(particles), MaxDist(lowEnd))
    {
      UpdateParticles(viewport, wave);
      if !lowEnd {
        visited, lines := ConnectParticles();
      } else {
        visited, lines := [], [];
      }
    }

    /** `particles.forEach(p => p.update())`: each particle moves exactly once. */
    method UpdateParticles(viewport: Viewport, wave: real -> real)
      requires Distinct(particles)
      modifies particles
      ensures forall k :: 0 <= k < |particles| ==> Drifted(particles[k], old(particles[k].x), viewport, wave)
    {
      for k := 0 to |particles|
        invariant forall a :: 0 <= a < k ==> Drifted(particles[a], old(particles[a].x), viewport, wave)
        invariant forall a :: k <= a < |particles| ==> unchanged(particles[a])
      {
        particles[k].Update(viewport, wave);
      }
    }

    /** `shapes.forEach(s => s.update())`: each hexagon moves exactly once. */
    method UpdateShapes(viewport: Viewport)
      requires Distinct(shapes)
      modifies shapes
      ensures Positions(particles) == old(Positions(particles))
      ensures forall k :: 0 <= k < |shapes| ==>
        Bounced(shapes[k], old(shapes[k].x), old(shapes[k].y), old(shapes[k].vx), old(shapes[k].vy), old(shapes[k].angle), viewport)
    {
      for k := 0 to |shapes|
        invariant forall a :: 0 <= a < k ==>
          Bounced(shapes[a], old(shapes[a].x), old(shapes[a].y), old(shapes[a].vx), old(shapes[a].vy), old(shapes[a].angle), viewport)
        invariant forall a :: k <= a < |shapes| ==> unchanged(shapes[a])
      {
        shapes[k].Update(viewport);
      }
    }

    /** A window resize: `resizeCanvas`, then `initParticles`, the two
        listeners in the order they were added. */
    method OnResize(viewport: Viewport, draws: seq<real>)
      requires |draws| == DrawsNeeded(isMobile) && AllDraws(draws)
      modifies this, surface
      ensures Valid()
      ensures surface.width == BufferSize(viewport.width, surface.dpr, DefaultWidth)
      ensures surface.height == BufferSize(viewport.height, surface.dpr, DefaultHeight)
      ensures |particles| == ParticleCount(isMobile) && |shapes| == ShapeCount(isMobile)
      ensures forall i :: 0 <= i < |particles| ==> fresh(particles[i]) && ParticleInRange(particles[i], lowEnd, viewport)
      ensures forall j :: 0 <= j < |shapes| ==> fresh(shapes[j]) && ShapeInRange(shapes[j], viewport)
    {
      surface.Resize(viewport);
      InitParticles(viewport, draws);
    }
  }

  /** The end of the script: `initParticles(); animate();`. The animator is
      built and its first frame is drawn; afterwards every resize is
      `OnResize` on the animator returned. */
  method Start(viewport: Viewport, devicePixelRatio: Option<real>, hardwareConcurrency: Option<real>,
               deviceMemory: Option<real>, draws: seq<real>, wave: real -> real)
    returns (a: Animator, visited: seq<(nat, nat)>, lines: seq<(nat, nat)>)
    requires |draws| == DrawsNeeded(IsMobile(viewport.width)) && AllDraws(draws)
    ensures fresh(a) && a.Valid()
    ensures fresh(a.surface)
    ensures forall i :: 0 <= i < |a.particles| ==> fresh(a.particles[i])
    ensures forall j :: 0 <= j < |a.shapes| ==> fresh(a.shapes[j])
    ensures a.isMobile == IsMobile(viewport.width) && a.lowEnd == LowEnd(a.isMobile, hardwareConcurrency, deviceMemory)
    ensures |a.particles| == ParticleCount(a.isMobile) && |a.shapes| == ShapeCount(a.isMobile)
    ensures visited == if a.lowEnd then [] else AllPairs(ParticleCount(a.isMobile))
    ensures PairsWithin(visited, |a.particles|)
    ensures lines == if a.lowEnd then [] else Close(visited, Positions(a.particles), MaxDist(a.lowEnd))
  {
    a := new Animator(viewport, devicePixelRatio, hardwareConcurrency, deviceMemory, draws);
    visited, lines := a.Animate(viewport, wave);
  }
}

=== FILE: dom.dfy ===
/** The small part of the browser's document model that the page scripts use:
    an element's class list, and the entries an IntersectionObserver delivers. */
module Dom {

  /** An element, seen through its `classList`. The order of the classes does
      not matter to any of the scripts, so the list is a set of class names. */
  class Element {
    var classes: set<string>

    constructor (classes: set<string>)
      ensures this.classes == classes
    {
      this.classes := classes;
    }

    /** `classList.add(c)`: adding a class that is already there changes nothing. */
    method Add(c: string)
      modifies this
      ensures classes == old(classes) + {c}
    {
      classes := classes + {c};
    }

    /** `classList.remove(c)`: removing a class that is absent changes nothing. */
    method Remove(c: string)
      modifies this
      ensures classes == old(classes) - {c}
    {
      classes := classes - {c};
    }

    /** `classList.toggle(c)`: removes `c` if present, adds it otherwise, and
        reports whether `c` is present afterwards. */
    method Toggle(c: string) returns (present: bool)
      modifies this
      ensures present <==> c !in old(classes)
      ensures classes == Toggled(old(classes), c)
    {
      if c in classes {
        classes := classes - {c};
        present := false;
      } else {
        classes := classes + {c};
        present := true;
      }
    }

    /** `classList.replace(from, to)`: only when `from` is present is it taken
        out and `to` put in; otherwise the list is left alone. */
    method Replace(from: string, to: string) returns (replaced: bool)
      modifies this
      ensures replaced <==> from in old(classes)
      ensures classes == Replaced(old(classes), from, to)
    {
      replaced := from in classes;
      if replaced {
        classes := classes - {from} + {to};
      }
    }
  }

  /** A class list after `toggle(c)`. */
  function Toggled(classes: set<string>, c: string): set<string> {
    if c in classes then classes - {c} else classes + {c}
  }

  /** A class list after `replace(from, to)`. */
  function Replaced(classes: set<string>, from: string, to: string): set<string> {
    if from in classes then classes - {from} + {to} else classes
  }

  /** No object occurs twice: what `querySelectorAll` and per-item
      `querySelector` calls return. */
  predicate Distinct<T(==)>(s: seq<T>) {
    forall i, j :: 0 <= i < j < |s| ==> s[i] != s[j]
  }

  /** One IntersectionObserver entry: the observed element and whether it
      intersects the viewport. */
  datatype Entry = Entry(target: Element, isIntersecting: bool)

  /** The elements a batch of entries is about. */
  function Targets(entries: seq<Entry>): set<Element> {
    set i | 0 <= i < |entries| :: entries[i].target
  }

  /** The elements of a batch whose entry reports an intersection. */
  function IntersectingTargets(entries: seq<Entry>): set<Element> {
    set i | 0 <= i < |entries| && entries[i].isIntersecting :: entries[i].target
  }

  /** Taking one more entry of a batch adds its target, and adds it to the
      intersecting ones exactly when that entry intersects. */
  lemma TargetsSnoc(entries: seq<Entry>, i: nat)
    requires i < |entries|
    ensures Targets(entries[..i + 1]) == Targets(entries[..i]) + {entries[i].target}
    ensures IntersectingTargets(entries[..i + 1])
         == IntersectingTargets(entries[..i]) + (if entries[i].isIntersecting then {entries[i].target} else {})
  {
    var s, t := entries[..i], entries[..i + 1];
    assert forall k :: 0 <= k < i ==> t[k] == s[k];
    assert t[i] == entries[i];
  }
}

=== FILE: landing_one.dfy ===
/** The reveal-on-scroll rule of the first landing page: elements marked
    `.reveal` get the class `active` while they are in view. On a phone-sized
    window an element is revealed once and then left alone; on a wider window
    it is hidden again whenever it leaves the view. */
module LandingOne {
  import opened Dom
  import Background

  const Active := "active"

  /** What one observer entry does to its element's classes. */
  function RevealStep(classes: set<string>, isIntersecting: bool, isMobile: bool): set<string> {
    if isIntersecting then classes + {Active}
    else if !isMobile then classes - {Active}
    else classes
  }

  /** An element's classes after entries about it reporting `flags`, in order. */
  function Revealed(classes: set<string>, flags: seq<bool>, isMobile: bool): set<string> {
    if flags == [] then classes
    else RevealStep(Revealed(classes, flags[..|flags| - 1], isMobile), flags[|flags| - 1], isMobile)
  }

  /** The `isIntersecting` flags of the entries about `t`, in the order delivered. */
  function Flags(entries: seq<Entry>, t: Element): (flags: seq<bool>)
    ensures |flags| <= |entries|
  {
    if entries == [] then []
    else
      var last := entries[|entries| - 1];
      Flags(entries[..|entries| - 1], t) + (if last.target == t then [last.isIntersecting] else [])
  }

  lemma FlagsSnoc(entries: seq<Entry>, i: nat, t: Element)
    requires i < |entries|
    ensures Flags(entries[..i + 1], t)
         == Flags(entries[..i], t) + (if entries[i].target == t then [entries[i].isIntersecting] else [])
  {
    assert entries[..i + 1][..i] == entries[..i];
  }

  lemma RevealedSnoc(classes: set<string>, flags: seq<bool>, b: bool, isMobile: bool)
    ensures Revealed(classes, flags + [b], isMobile) == RevealStep(Revealed(classes, flags, isMobile), b, isMobile)
  {
    assert (flags + [b])[..|flags|] == flags;
  }

  /** On a phone an element carries `active` after a run of entries exactly
      when it did before or some entry saw it intersect: once shown, it stays. */
  lemma {:induction false} MobileRevealSticks(classes: set<string>, flags: seq<bool>)
    ensures Active in Revealed(classes, flags, true) <==> Active in classes || true in flags
  {
    if flags != [] {
      var front := flags[..|flags| - 1];
      MobileRevealSticks(classes, front);
      assert flags == front + [flags[|flags| - 1]];
    }
  }

  /** On a wider window the last entry decides: `active` exactly when the
      element was last seen intersecting. */
  lemma DesktopFollowsLastEntry(classes: set<string>, flags: seq<bool>)
    requires flags != []
    ensures Active in Revealed(classes, flags, false) <==> flags[|flags| - 1]
  {
  }

  /** The rule touches no class but `active`. */
  lemma {:induction false} RevealKeepsOtherClasses(classes: set<string>, flags: seq<bool>, isMobile: bool)
    ensures Revealed(classes, flags, isMobile) - {Active} == classes - {Active}
  {
    if flags != [] {
      RevealKeepsOtherClasses(classes, flags[..|flags| - 1], isMobile);
    }
  }

  /** The IntersectionObserver of the reveal rule, seen through the set of
      elements it still watches. */
  class RevealObserver {
    /** Whether the window was phone-sized when the page loaded. */
    const isMobile: bool
    var observed: set<Element>

    /** Created at load, watching every `.reveal` element. */
    constructor (innerWidth: nat, marked: set<Element>)
      ensures isMobile == Background.IsMobile(innerWidth)
      ensures observed == marked
    {
      isMobile := Background.IsMobile(innerWidth);
      observed := marked;
    }

    /** What the callback does for entry i of a batch: its element takes one
        more step of the rule, and on a phone an element seen intersecting
        is no longer watched. `initial` holds the classes every element of
        the batch had when the batch arrived, and `watched` the elements
        then watched. */
    method Deliver(entries: seq<Entry>, i: nat, ghost initial: map<Element, set<string>>, ghost watched: set<Element>)
      requires i < |entries| && Targets(entries) <= initial.Keys
      requires forall t :: t in Targets(entries) ==> t.classes == Revealed(initial[t], Flags(entries[..i], t), isMobile)
      requires observed == if isMobile then watched - IntersectingTargets(entries[..i]) else watched
      modifies this, entries[i].target
      ensures forall t :: t in Targets(entries) ==> t.classes == Revealed(initial[t], Flags(entries[..i + 1], t), isMobile)
      ensures observed == if isMobile && entries[i].isIntersecting then old(observed) - {entries[i].target} else old(observed)
      ensures observed == if isMobile then watched - IntersectingTargets(entries[..i + 1]) else watched
    {
      TargetsSnoc(entries, i);
      var e := entries[i];
      ghost var before := Flags(entries[..i], e.target);
      FlagsSnoc(entries, i, e.target);
      RevealedSnoc(initial[e.target], before, e.isIntersecting, isMobile);
      if e.isIntersecting {
        e.target.Add(Active);
        if isMobile {
          observed := observed - {e.target};
        }
      } else if !isMobile {
        e.target.Remove(Active);
      }
      forall t | t in Targets(entries) && t != e.target
        ensures Flags(entries[..i + 1], t) == Flags(entries[..i], t)
      {
        FlagsSnoc(entries, i, t);
      }
    }

    /** The observer callback over one batch of entries: every element the
        batch is about ends up with the classes its own entries give it, and
        on a phone each element seen intersecting is no longer watched. */
    method Callback(entries: seq<Entry>)
      modifies this, Targets(entries)
      ensures forall t :: t in Targets(entries) ==> t.classes == Revealed(old(t.classes), Flags(entries, t), isMobile)
      ensures observed == if isMobile then old(observed) - IntersectingTargets(entries) else old(observed)
    {
      ghost var initial := map t | t in Targets(entries) :: t.classes;
      ghost var watched := observed;
      for i := 0 to |entries|
        invariant forall t :: t in Targets(entries) ==> t.classes == Revealed(initial[t], Flags(entries[..i], t), isMobile)
        invariant observed == if isMobile then watched - IntersectingTargets(entries[..i]) else watched
      {
        Deliver(entries, i, initial, watched);
      }
      assert entries[..|entries|] == entries;
    }
  }
}

=== FILE: landing_two.dfy ===
/** The interactive parts of the second landing page: the background slider,
    the FAQ accordion, the counters that count up once the results come into
    view, and the one-shot scroll animation. */
module LandingTwo {
  import opened Dom

  // ---------------------------------------------------------------------
  // Background slider
  // ---------------------------------------------------------------------

  const Shown := "opacity-100"
  const Hidden := "opacity-0"

  /** The slide after `current` in a ring of `count` slides. */
  function NextSlide(current: nat, count: nat): (next: nat)
    requires 0 < count
    ensures next < count
    ensures current + 1 < count ==> next == current + 1
    ensures current + 1 == count ==> next == 0
  {
    (current + 1) % count
  }

  /** The slide shown after `k` ticks, starting from `current`. */
  function AfterTicks(current: nat, count: nat, k: nat): (slide: nat)
    requires 0 < count
  {
    if k == 0 then current else NextSlide(AfterTicks(current, count, k - 1), count)
  }

  /** Division with remainder has one answer: if `a == q * n + r` with
      `0 <= r < n`, then `q` and `r` are what `/` and `%` give. */
  lemma DivModUnique(a: int, n: int, q: int, r: int)
    requires 0 < n && a == q * n + r && 0 <= r < n
    ensures a / n == q && a % n == r
  {
    var q2, r2 := a / n, a % n;
    assert (q - q2) * n == r2 - r;
    assert q - q2 >= 1 ==> (q - q2) * n >= 1 * n;
    assert q - q2 <= -1 ==> (q - q2) * n <= -1 * n;
  }

  /** One more step round the ring is one more tick. */
  lemma ModSucc(m: nat, count: nat)
    requires 0 < count
    ensures (m + 1) % count == NextSlide(m % count, count)
  {
    var q, r := m / count, m % count;
    if r + 1 < count {
      DivModUnique(m + 1, count, q, r + 1);
    } else {
      DivModUnique(m + 1, count, q + 1, 0);
    }
  }

  /** `k` ticks move the slider `k` places round the ring. */
  lemma {:induction false} TicksAdvance(current: nat, count: nat, k: nat)
    requires current < count
    ensures AfterTicks(current, count, k) == (current + k) % count
  {
    if k > 0 {
      TicksAdvance(current, count, k - 1);
      ModSucc(current + k - 1, count);
    }
  }

  /** After as many ticks as there are slides the first slide is back. */
  lemma FullCycleReturns(current: nat, count: nat)
    requires current < count
    ensures AfterTicks(current, count, count) == current
  {
    TicksAdvance(current, count, count);
    DivModUnique(current + count, count, 1, current);
  }

  /** The `#bg-slider` slides and the index of the one on show. */
  class Slider {
    const slides: seq<Element>
    var current: nat

    ghost predicate Valid()
      reads this
    {
      0 < |slides| && current < |slides| && Distinct(slides)
    }

    /** Slide `k` is on show and every other slide is hidden: each slide
        carries exactly one of the two opacity classes. */
    ghost predicate Showing(k: nat)
      reads this, slides
    {
      forall i :: 0 <= i < |slides| ==>
        (Shown in slides[i].classes <==> i == k) && (Hidden in slides[i].classes <==> i != k)
    }

    /** The slider starts at the first slide. */
    constructor (slides: seq<Element>)
      requires 0 < |slides| && Distinct(slides)
      ensures Valid() && this.slides == slides && current == 0
    {
      this.slides := slides;
      current := 0;
    }

    /** One interval tick: the current slide swaps `opacity-100` for
        `opacity-0`, the index moves on, and the new current slide swaps
        `opacity-0` for `opacity-100`. No other slide is touched, and a
        slider showing exactly its current slide still does so. */
    method Tick()
      requires Valid()
      modifies this, slides
      ensures Valid()
      ensures current == NextSlide(old(current), |slides|)
      // Inside old(...), `current` is the old index: the first clause reads the
      // old current slide, the second the slide that becomes current.
      ensures current != old(current) ==>
                slides[old(current)].classes == Replaced(old(slides[current].classes), Shown, Hidden)
                && slides[current].classes == Replaced(old(slides[NextSlide(current, |slides|)].classes), Hidden, Shown)
      ensures current == old(current) ==>
                slides[current].classes == Replaced(Replaced(old(slides[current].classes), Shown, Hidden), Hidden, Shown)
      ensures forall i :: 0 <= i < |slides| && i != old(current) && i != current ==> slides[i].classes == old(slides[i].classes)
      ensures old(Showing(current)) ==> Showing(current)
    {
      var _ := slides[current].Replace(Shown, Hidden);
      current := NextSlide(current, |slides|);
      var _ := slides[current].Replace(Hidden, Shown);
    }
  }

  // ---------------------------------------------------------------------
  // FAQ accordion
  // ---------------------------------------------------------------------

  const Open := "open"
  const Rotated := "rotate-180"

  /** `classes` with `c` present exactly when `on`. */
  function WithClass(classes: set<string>, c: string, on: bool): (r: set<string>)
    ensures c in r <==> on
    ensures r - {c} == classes - {c}
  {
    if on then classes + {c} else classes - {c}
  }

  /** The contents and icons of an accordion are all different elements. */
  lemma DistinctParts(contents: seq<Element>, icons: seq<Element>)
    requires Distinct(contents + icons)
    ensures Distinct(contents) && Distinct(icons)
    ensures forall a, b :: 0 <= a < |contents| && 0 <= b < |icons| ==> contents[a] != icons[b]
  {
    var all := contents + icons;
    assert forall a :: 0 <= a < |contents| ==> all[a] == contents[a];
    assert forall b :: 0 <= b < |icons| ==> all[|contents| + b] == icons[b];
  }

  /** The `.faq-item`s, each seen through its `.faq-content` and its `.faq-icon`. */
  class Accordion {
    const contents: seq<Element>
    const icons: seq<Element>

    ghost predicate Valid()
      reads this
    {
      |contents| == |icons| && Distinct(contents + icons)
    }

    /** At most one item is open. */
    ghost predicate AtMostOneOpen()
      reads this, contents
    {
      forall i, j :: 0 <= i < |contents| && 0 <= j < |contents| && Open in contents[i].classes && Open in contents[j].classes ==> i == j
    }

    /** Each icon is turned exactly when its item is open. */
    ghost predicate IconsMatch()
      reads this, contents, icons
      requires |contents| == |icons|
    {
      forall i :: 0 <= i < |contents| ==> (Rotated in icons[i].classes <==> Open in contents[i].classes)
    }

    constructor (contents: seq<Element>, icons: seq<Element>)
      requires |contents| == |icons| && Distinct(contents + icons)
      ensures Valid() && this.contents == contents && this.icons == icons
    {
      this.contents := contents;
      this.icons := icons;
    }

    /** The click handler of item `k`'s header: every item is closed and
        its icon turned back, then item `k` is opened if it was closed. */
    method Click(k: nat)
      requires Valid() && k < |contents|
      modifies contents, icons
      ensures forall i :: 0 <= i < |contents| ==>
                contents[i].classes == WithClass(old(contents[i].classes), Open, i == k && Open !in old(contents[k].classes))
      ensures forall i :: 0 <= i < |icons| ==>
                icons[i].classes == WithClass(old(icons[i].classes), Rotated, i == k && Open !in old(contents[k].classes))
      ensures AtMostOneOpen() && IconsMatch()
      ensures Open in old(contents[k].classes) ==> forall i :: 0 <= i < |contents| ==> Open !in contents[i].classes
      ensures Open !in old(contents[k].classes) ==> forall i :: 0 <= i < |contents| ==> (Open in contents[i].classes <==> i == k)
    {
      DistinctParts(contents, icons);
      var isOpen := Open in contents[k].classes;
      for i := 0 to |contents|
        invariant forall j :: 0 <= j < i ==> contents[j].classes == old(contents[j].classes) - {Open}
        invariant forall j :: i <= j < |contents| ==> contents[j].classes == old(contents[j].classes)
        invariant forall j :: 0 <= j < i ==> icons[j].classes == old(icons[j].classes) - {Rotated}
        invariant forall j :: i <= j < |icons| ==> icons[j].classes == old(icons[j].classes)
      {
        CloseItem(i);
      }
      if !isOpen {
        contents[k].Add(Open);
        icons[k].Add(Rotated);
      }
    }

    /** The inner loop's visit of item `i`: its content closes and its icon
        turns back; nothing else changes. */
    method CloseItem(i: nat)
      requires Valid() && i < |contents|
      modifies contents[i], icons[i]
      ensures contents[i].classes == old(contents[i].classes) - {Open}
      ensures icons[i].classes == old(icons[i].classes) - {Rotated}
    {
      assert (contents + icons)[i] == contents[i] && (contents + icons)[|contents| + i] == icons[i];
      contents[i].Remove(Open);
      icons[i].Remove(Rotated);
    }
  }

  // ---------------------------------------------------------------------
  // Animated counters
  // ---------------------------------------------------------------------

  /** How long a counter takes to reach its target, in milliseconds. */
  const Duration: real := 2000.0

  /** How far along a counter is, `elapsed` milliseconds after it started:
      the share of the duration, capped at 1. */
  function Progress(elapsed: real): (p: real)
    ensures p <= 1.0
    ensures p == 1.0 <==> elapsed >= Duration
    ensures 0.0 <= elapsed ==> 0.0 <= p
  {
    if elapsed / Duration < 1.0 then elapsed / Duration else 1.0
  }

  /** The cubic ease-out curve, 1 - (1 - p)^3. */
  function Ease(p: real): real {
    1.0 - (1.0 - p) * (1.0 - p) * (1.0 - p)
  }

  /** On [0, 1] the curve starts at 0, ends at 1, stays between them and
      runs ahead of the straight line. */
  lemma EaseBounds(p: real)
    requires 0.0 <= p <= 1.0
    ensures Ease(0.0) == 0.0 && Ease(1.0) == 1.0
    ensures p <= Ease(p) <= 1.0
  {
    var q := 1.0 - p;
    assert 0.0 <= q * q <= q by {
      assert q * q <= q * 1.0;
    }
    assert 0.0 <= q * q * q <= q * q by {
      assert q * q * q <= q * q * 1.0;
    }
    assert Ease(p) == 1.0 - q * q * q;
  }

  /** The curve never goes back: a later progress eases to at least as much. */
  lemma EaseMonotonic(p1: real, p2: real)
    requires 0.0 <= p1 <= p2 <= 1.0
    ensures Ease(p1) <= Ease(p2)
  {
    var q1, q2 := 1.0 - p1, 1.0 - p2;
    assert q2 * q2 <= q1 * q1 by {
      assert q2 * q2 <= q1 * q2 <= q1 * q1;
    }
    assert q2 * q2 * q2 <= q1 * q1 * q1 by {
      assert q2 * q2 * q2 <= q1 * q1 * q2 <= q1 * q1 * q1;
    }
  }

  /** What one animation frame writes into a counter: the eased value while
      the animation runs, the target itself on the last frame. The value is
      kept unformatted. */
  datatype CounterText = Eased(value: real) | Exactly(target: real)

  /** One frame's outcome: the text written and whether another frame is requested. */
  datatype Frame = Frame(text: CounterText, again: bool)

  /** The `update` callback of a counter, `elapsed` milliseconds in. */
  function CounterFrame(elapsed: real, target: real): (f: Frame)
    ensures f.again <==> elapsed < Duration
    ensures !f.again ==> f.text == Exactly(target)
    ensures f.again ==> f.text.Eased?
  {
    var progress := Progress(elapsed);
    var value := Ease(progress) * target;
    if progress < 1.0 then Frame(Eased(value), true) else Frame(Exactly(target), false)
  }

  /** While a counter runs, the value it shows lies between 0 and its
      (non-negative) target and never goes down from one frame to the next. */
  lemma CounterClimbs(e1: real, e2: real, target: real)
    requires 0.0 <= e1 <= e2 && 0.0 <= target
    ensures CounterFrame(e1, target).again ==>
              0.0 <= CounterFrame(e1, target).text.value <= target
    ensures CounterFrame(e1, target).again && CounterFrame(e2, target).again ==>
              CounterFrame(e1, target).text.value <= CounterFrame(e2, target).text.value
  {
    var p1, p2 := Progress(e1), Progress(e2);
    EaseBounds(p1);
    EaseMonotonic(p1, p2);
    assert 0.0 <= Ease(p1) * target <= 1.0 * target;
    assert Ease(p1) * target <= Ease(p2) * target;
  }

  /** The IntersectionObserver on `#results-container`: the counters start
      the first time the container intersects, and it is watched no more. */
  class CounterTrigger {
    var observing: bool
    /** How many times the counters were started. */
    var runs: nat

    ghost predicate Valid()
      reads this
    {
      runs == if observing then 0 else 1
    }

    constructor ()
      ensures Valid() && observing && runs == 0
    {
      observing := true;
      runs := 0;
    }

    /** The observer callback. Only the first entry is looked at; the
        browser calls back only while the container is watched. */
    method Callback(entries: seq<Entry>)
      requires Valid() && observing && 0 < |entries|
      modifies this
      ensures Valid() && runs <= 1
      ensures observing <==> !entries[0].isIntersecting
    {
      if entries[0].isIntersecting {
        runs := runs + 1;
        observing := false;
      }
    }
  }

  // ---------------------------------------------------------------------
  // One-shot scroll animation
  // ---------------------------------------------------------------------

  const FadeInUp := "fade-in-up"

  /** The IntersectionObserver on the `.animate-on-scroll` elements. */
  class ScrollReveal {
    var observed: set<Element>

    /** Set up only when some element is marked. */
    constructor (marked: set<Element>)
      requires marked != {}
      ensures observed == marked
    {
      observed := marked;
    }

    /** What the callback does for one entry. */
    method Deliver(e: Entry)
      modifies this, e.target
      ensures e.target.classes == if e.isIntersecting then old(e.target.classes) + {FadeInUp} else old(e.target.classes)
      ensures observed == if e.isIntersecting then old(observed) - {e.target} else old(observed)
    {
      if e.isIntersecting {
        e.target.Add(FadeInUp);
        observed := observed - {e.target};
      }
    }

    /** The observer callback: each element seen intersecting gains
        `fade-in-up` and is watched no more. The class is never taken away,
        so an element that already has it is left as it was. */
    method Callback(entries: seq<Entry>)
      modifies this, Targets(entries)
      ensures forall t :: t in Targets(entries) ==>
                t.classes == if t in IntersectingTargets(entries) then old(t.classes) + {FadeInUp} else old(t.classes)
      ensures forall t :: t in Targets(entries) && FadeInUp in old(t.classes) ==> t.classes == old(t.classes)
      ensures observed == old(observed) - IntersectingTargets(entries)
    {
      for i := 0 to |entries|
        invariant forall t :: t in Targets(entries) ==>
                    t.classes == if t in IntersectingTargets(entries[..i]) then old(t.classes) + {FadeInUp} else old(t.classes)
        invariant observed == old(observed) - IntersectingTargets(entries[..i])
      {
        TargetsSnoc(entries, i);
        Deliver(entries[i]);
      }
      assert entries[..|entries|] == entries;
    }
  }
}

=== FILE: required_form.dfy ===
/** The required-field check both landing pages run when their form is
    submitted. The first page takes a field's value as it is; the second trims
    it first. Either way every `.required` field gets a red or a grey border,
    the filled ones are gathered into `formData` by name, and the page moves
    on to its thank-you page only when every field is filled. */
module RequiredForm {
  import opened Text

  const ErrorBorder := "1px solid red"
  const OkBorder := "1px solid #ccc"

  /** The value a handler looks at: trimmed on the second page, as typed on the first. */
  function Cleaned(value: string, trims: bool): string {
    if trims then Trim(value) else value
  }

  /** A field counts as filled when the value the handler looks at is a
      non-empty string, the only string JavaScript treats as false. */
  predicate Filled(value: string, trims: bool) {
    Cleaned(value, trims) != ""
  }

  /** The untrimmed check refuses only the empty value; the trimmed one
      refuses exactly the values made of white space alone. */
  lemma FilledMeans(value: string)
    ensures Filled(value, false) <==> value != []
    ensures Filled(value, true) <==> !IsBlank(value)
  {
    TrimEmptyIffBlank(value);
  }

  /** The untrimmed check lets through every non-empty value made of white
      space alone, which the trimmed one refuses; on any other value the two
      checks agree. */
  lemma UntrimmedAcceptsSpaces(value: string)
    ensures Filled(value, false) && !Filled(value, true) <==> value != [] && IsBlank(value)
    ensures !(value != [] && IsBlank(value)) ==> (Filled(value, false) <==> Filled(value, true))
  {
    FilledMeans(value);
  }

  /** The border a field is given. */
  function Border(value: string, trims: bool): (b: string)
    ensures b == ErrorBorder <==> !Filled(value, trims)
    ensures b == OkBorder <==> Filled(value, trims)
  {
    if Filled(value, trims) then OkBorder else ErrorBorder
  }

  /** The (name, value) pairs with each value replaced by the one the handler looks at. */
  function Clean(pairs: seq<(string, string)>, trims: bool): (entries: seq<(string, string)>)
    ensures |entries| == |pairs|
    ensures forall i {:trigger entries[i]} :: 0 <= i < |pairs| ==> entries[i] == (pairs[i].0, Cleaned(pairs[i].1, trims))
  {
    if pairs == [] then []
    else Clean(pairs[..|pairs| - 1], trims) + [(pairs[|pairs| - 1].0, Cleaned(pairs[|pairs| - 1].1, trims))]
  }

  /** `formData` after visiting (name, cleaned value) pairs in order: a
      non-empty value is written under its name, overwriting what an earlier
      field of the same name wrote; an empty one writes nothing. */
  function Gather(entries: seq<(string, string)>): map<string, string> {
    if entries == [] then map[]
    else
      var data := Gather(entries[..|entries| - 1]);
      var (name, value) := entries[|entries| - 1];
      if value == "" then data else data[name := value]
  }

  /** `formData` after the fields `pairs` (name, value) are visited in order. */
  function Collect(pairs: seq<(string, string)>, trims: bool): map<string, string> {
    Gather(Clean(pairs, trims))
  }

  lemma GatherSnoc(entries: seq<(string, string)>, i: nat)
    requires i < |entries|
    ensures Gather(entries[..i + 1])
         == if entries[i].1 == "" then Gather(entries[..i]) else Gather(entries[..i])[entries[i].0 := entries[i].1]
  {
    assert entries[..i + 1][..i] == entries[..i];
  }

  /** `Gather` holds a name exactly when some entry gives it a non-empty
      value, and the value under it is that of the last such entry. */
  lemma {:induction false} GatherSpec(entries: seq<(string, string)>, name: string)
    ensures name in Gather(entries) <==> exists i :: 0 <= i < |entries| && entries[i].0 == name && entries[i].1 != ""
    ensures name in Gather(entries) ==>
              exists i :: 0 <= i < |entries| && entries[i] == (name, Gather(entries)[name]) && entries[i].1 != ""
                && forall j :: i < j < |entries| && entries[j].0 == name ==> entries[j].1 == ""
  {
    if entries != [] {
      var n := |entries| - 1;
      var front := entries[..n];
      GatherSpec(front, name);
      assert forall i :: 0 <= i < n ==> front[i] == entries[i];
      if entries[n].0 == name && entries[n].1 != "" {
        assert entries[n] == (name, Gather(entries)[name]);
      } else if name in Gather(entries) {
        assert Gather(entries)[name] == Gather(front)[name];
        var i :| 0 <= i < n && front[i] == (name, Gather(front)[name]) && front[i].1 != ""
          && forall j :: i < j < n && front[j].0 == name ==> front[j].1 == "";
        assert entries[i] == front[i];
      }
    }
  }

  /** `formData` holds a name exactly when some filled field has that name,
      and the value under it is the cleaned value of the last such field. */
  lemma CollectSpec(pairs: seq<(string, string)>, trims: bool, name: string)
    ensures name in Collect(pairs, trims) <==> exists i :: 0 <= i < |pairs| && pairs[i].0 == name && Filled(pairs[i].1, trims)
    ensures name in Collect(pairs, trims) ==>
              exists i :: 0 <= i < |pairs| && pairs[i].0 == name && Filled(pairs[i].1, trims)
                && Collect(pairs, trims)[name] == Cleaned(pairs[i].1, trims)
                && forall j :: i < j < |pairs| && pairs[j].0 == name ==> !Filled(pairs[j].1, trims)
  {
    var entries := Clean(pairs, trims);
    GatherSpec(entries, name);
    assert forall i :: 0 <= i < |pairs| ==> entries[i] == (pairs[i].0, Cleaned(pairs[i].1, trims));
    if name in Collect(pairs, trims) {
      var i :| 0 <= i < |entries| && entries[i] == (name, Gather(entries)[name]) && entries[i].1 != ""
        && forall j :: i < j < |entries| && entries[j].0 == name ==> entries[j].1 == "";
      assert pairs[i].0 == name && Filled(pairs[i].1, trims);
    }
  }

  /** The (name, value) pairs of parallel name and value lists. */
  function Zip(names: seq<string>, values: seq<string>): (pairs: seq<(string, string)>)
    requires |names| == |values|
    ensures |pairs| == |names|
    ensures forall i {:trigger pairs[i]} :: 0 <= i < |names| ==> pairs[i] == (names[i], values[i])
  {
    seq(|names|, i requires 0 <= i < |names| => (names[i], values[i]))
  }

  /** The `.required` controls of a form, in document order: each one's
      `name`, its current `value` and its inline `style.border`. */
  class RequiredFields {
    const names: seq<string>
    var values: seq<string>
    var borders: seq<string>

    ghost predicate Valid()
      reads this
    {
      |values| == |names| && |borders| == |names|
    }

    constructor (names: seq<string>, values: seq<string>, borders: seq<string>)
      requires |values| == |names| && |borders| == |names|
      ensures Valid()
      ensures this.names == names && this.values == values && this.borders == borders
    {
      this.names := names;
      this.values := values;
      this.borders := borders;
    }

    /** The submit handler. `trims` is false for the first landing page and
        true for the second. No value is changed; every field gets the border
        its own value calls for; the form is valid exactly when every field is
        filled, and only then does the page redirect. */
    method Submit(trims: bool) returns (isValid: bool, formData: map<string, string>, redirect: bool)
      requires Valid()
      modifies this`borders
      ensures Valid()
      ensures forall i :: 0 <= i < |names| ==> borders[i] == Border(values[i], trims)
      ensures isValid <==> forall i :: 0 <= i < |names| ==> Filled(values[i], trims)
      ensures formData == Collect(Zip(names, values), trims)
      ensures redirect <==> isValid
    {
      ghost var entries := Clean(Zip(names, values), trims);
      isValid := true;
      formData := map[];
      for i := 0 to |names|
        invariant |borders| == |names|
        invariant forall k :: 0 <= k < i ==> borders[k] == Border(values[k], trims)
        invariant isValid <==> forall k :: 0 <= k < i ==> Filled(values[k], trims)
        invariant formData == Gather(entries[..i])
      {
        var cleaned := Cleaned(values[i], trims);
        GatherSnoc(entries, i);
        assert entries[i] == (names[i], cleaned);
        if cleaned == "" {
          isValid := false;
          borders := borders[i := ErrorBorder];
        } else {
          borders := borders[i := OkBorder];
          formData := formData[names[i] := cleaned];
        }
      }
      assert entries[..|names|] == entries;
      redirect := isValid;
    }
  }
}

=== FILE: site_script.dfy ===
/** The site script: the consultation form's check and reset, the mobile
    menu, and in-page anchor navigation. */
module SiteScript {
  import opened Text
  import opened Dom

  // ---------------------------------------------------------------------
  // Consultation form
  // ---------------------------------------------------------------------

  const ErrorColor := "#ef4444"
  const ValidColor := "#10b981"
  const ResetColor := "#e5e7eb"

  /** The kind of a form control, as far as the handler's selectors care. */
  datatype Tag = Input | Select | Other

  /** The border colour the check gives a required control, from that
      control's value alone. */
  function CheckColor(value: string): string {
    if Trim(value) == "" then ErrorColor else ValidColor
  }

  /** The check colour is red exactly when the value is blank (empty once
      trimmed), and green otherwise. */
  lemma CheckColorMeans(value: string)
    ensures CheckColor(value) == ErrorColor <==> IsBlank(value)
    ensures CheckColor(value) == ValidColor <==> !IsBlank(value)
  {
    TrimEmptyIffBlank(value);
  }

  /** The controls of `#consultation-form`, in document order: what kind
      each is, whether it is `required`, its default value, and its current
      value and inline `style.borderColor`. */
  class ConsultationForm {
    const tags: seq<Tag>
    const required: seq<bool>
    const defaults: seq<string>
    var values: seq<string>
    var colors: seq<string>

    ghost predicate Valid()
      reads this
    {
      |required| == |tags| && |defaults| == |tags| && |values| == |tags| && |colors| == |tags|
    }

    /** Control `i` is one the check looks at: a required `input` or `select`. */
    predicate Checked(i: nat)
      requires i < |tags| && |required| == |tags|
    {
      tags[i] != Other && required[i]
    }

    constructor (tags: seq<Tag>, required: seq<bool>, defaults: seq<string>, values: seq<string>, colors: seq<string>)
      requires |required| == |tags| && |defaults| == |tags| && |values| == |tags| && |colors| == |tags|
      ensures Valid()
      ensures this.tags == tags && this.required == required && this.defaults == defaults
      ensures this.values == values && this.colors == colors
    {
      this.tags := tags;
      this.required := required;
      this.defaults := defaults;
      this.values := values;
      this.colors := colors;
    }

    /** The checking loop: every checked control gets its check colour, the
        others keep theirs, and the form is valid exactly when no checked
        control is blank. */
    method Check() returns (isValid: bool)
      requires Valid()
      modifies this`colors
      ensures Valid()
      ensures forall i :: 0 <= i < |tags| ==> colors[i] == if Checked(i) then CheckColor(values[i]) else old(colors)[i]
      ensures isValid <==> forall i :: 0 <= i < |tags| && Checked(i) ==> !IsBlank(values[i])
    {
      isValid := true;
      for i := 0 to |tags|
        invariant |colors| == |tags|
        invariant forall k :: 0 <= k < i ==> colors[k] == if Checked(k) then CheckColor(values[k]) else old(colors)[k]
        invariant forall k :: i <= k < |tags| ==> colors[k] == old(colors)[k]
        invariant isValid <==> forall k :: 0 <= k < i && Checked(k) ==> Trim(values[k]) != ""
      {
        if Checked(i) {
          colors := colors[i := CheckColor(values[i])];
          if Trim(values[i]) == "" {
            isValid := false;
          }
        }
      }
      forall k | 0 <= k < |tags| {
        TrimEmptyIffBlank(values[k]);
      }
    }

    /** `form.reset()` followed by the loop over `input, select`: every
        control is back at its default value, and every `input` and `select`
        gets the neutral border colour. */
    method Reset()
      requires Valid()
      modifies this`values, this`colors
      ensures Valid()
      ensures values == defaults
      ensures forall i :: 0 <= i < |tags| ==> colors[i] == if tags[i] != Other then ResetColor else old(colors)[i]
    {
      values := defaults;
      for i := 0 to |tags|
        invariant values == defaults && |colors| == |tags|
        invariant forall k :: 0 <= k < i ==> colors[k] == if tags[k] != Other then ResetColor else old(colors)[k]
        invariant forall k :: i <= k < |tags| ==> colors[k] == old(colors)[k]
      {
        if tags[i] != Other {
          colors := colors[i := ResetColor];
        }
      }
    }

    /** The submit handler. A valid form is reset and every `input` and
        `select` gets the neutral colour; an invalid one keeps its values
        and the colours the check gave. */
    method Submit() returns (isValid: bool)
      requires Valid()
      modifies this`values, this`colors
      ensures Valid()
      ensures isValid <==> forall i :: 0 <= i < |tags| && Checked(i) ==> !IsBlank(old(values)[i])
      ensures values == if isValid then defaults else old(values)
      ensures forall i :: 0 <= i < |tags| ==>
                colors[i] == if isValid && tags[i] != Other then ResetColor
                             else if Checked(i) then CheckColor(old(values)[i])
                             else old(colors)[i]
    {
      isValid := Check();
      if isValid {
        Reset();
      }
    }
  }

  // ---------------------------------------------------------------------
  // Mobile menu
  // ---------------------------------------------------------------------

  const HiddenClass := "hidden"

  /** The `.mobile-menu-btn` and `.nav-links` pair, seen through the links'
      class list. */
  class MobileMenu {
    const navLinks: Element

    constructor (navLinks: Element)
      ensures this.navLinks == navLinks
    {
      this.navLinks := navLinks;
    }

    /** A click on the menu button toggles `hidden` on the links. */
    method ButtonClick()
      modifies navLinks
      ensures navLinks.classes == Toggled(old(navLinks.classes), HiddenClass)
      ensures HiddenClass in navLinks.classes <==> HiddenClass !in old(navLinks.classes)
    {
      var _ := navLinks.Toggle(HiddenClass);
    }

    /** A click on any link hides the links. */
    method LinkClick()
      modifies navLinks
      ensures navLinks.classes == Closed(old(navLinks.classes))
    {
      navLinks.Add(HiddenClass);
    }
  }

  /** The links' classes after a link click. */
  function Closed(classes: set<string>): set<string> {
    classes + {HiddenClass}
  }

  /** Two clicks on the menu button leave the links as they were. */
  lemma ToggleTwiceRestores(classes: set<string>)
    ensures Toggled(Toggled(classes, HiddenClass), HiddenClass) == classes
  {
  }

  /** Closing is idempotent: after one link click the links are hidden, and
      further clicks change nothing. */
  lemma CloseIsIdempotent(classes: set<string>)
    ensures HiddenClass in Closed(classes)
    ensures Closed(classes) - {HiddenClass} == classes - {HiddenClass}
    ensures Closed(Closed(classes)) == Closed(classes)
  {
  }

  // ---------------------------------------------------------------------
  // Anchor navigation
  // ---------------------------------------------------------------------

  /** What a click on an in-page link leads to. */
  datatype Navigation =
    | ScrollTo(target: Element)  // the target is scrolled into view
    | NoTarget                   // no element matches: nothing happens
    | BadSelector                // `#` alone is not a selector: the lookup throws

  /** The click handler of a link whose `href` starts with `#`: the rest of
      the `href` is looked up among the element ids (`ids` maps each id to
      the first element carrying it). */
  function Navigate(href: string, ids: map<string, Element>): (n: Navigation)
    requires 0 < |href| && href[0] == '#'
    ensures n.ScrollTo? <==> |href| > 1 && href[1..] in ids
    ensures n.ScrollTo? ==> n.target == ids[href[1..]]
    ensures n == BadSelector <==> href == "#"
  {
    var id := href[1..];
    if id == "" then BadSelector
    else if id in ids then ScrollTo(ids[id])
    else NoTarget
  }
}

=== FILE: text.dfy ===
/** JavaScript's `String.prototype.trim`, which two of the form handlers apply
    to a field's value before deciding whether it is filled in. */
module Text {

  /** The characters `trim` strips: ECMAScript's WhiteSpace (tab, vertical tab,
      form feed, the byte-order mark and every space separator) and its
      LineTerminator characters. */
  predicate IsSpace(c: char) {
    c == '\t' || c == '\U{0B}' || c == '\U{0C}' || c == ' ' || c == '\U{A0}' || c == '\U{FEFF}'
    || c == '\U{1680}' || ('\U{2000}' <= c <= '\U{200A}') || c == '\U{202F}' || c == '\U{205F}'
    || c == '\U{3000}'
    || c == '\n' || c == '\r' || c == '\U{2028}' || c == '\U{2029}'
  }

  /** Every character of `s` is one `trim` strips (vacuously so for ""). */
  predicate IsBlank(s: string) {
    forall i :: 0 <= i < |s| ==> IsSpace(s[i])
  }

  /** `s` without its leading white space. */
  function TrimStart(s: string): (r: string)
    ensures |r| <= |s|
  {
    if s == [] || !IsSpace(s[0]) then s else TrimStart(s[1..])
  }

  /** What `TrimStart` keeps is a suffix that is empty or starts with a
      character that is kept, and all it cuts is white space. */
  lemma {:induction false} TrimStartFacts(s: string)
    ensures TrimStart(s) == s[|s| - |TrimStart(s)|..]
    ensures TrimStart(s) == [] || !IsSpace(TrimStart(s)[0])
    ensures IsBlank(s[..|s| - |TrimStart(s)|])
  {
    if s != [] && IsSpace(s[0]) {
      TrimStartFacts(s[1..]);
      var k := |s| - |TrimStart(s)|;
      assert s[1..][..k - 1] == s[1..k];
    }
  }

  /** `s` without its trailing white space. */
  function TrimEnd(s: string): (r: string)
    ensures |r| <= |s|
  {
    if s == [] || !IsSpace(s[|s| - 1]) then s else TrimEnd(s[..|s| - 1])
  }

  /** What `TrimEnd` keeps is a prefix that is empty or ends with a
      character that is kept, and all it cuts is white space. */
  lemma {:induction false} TrimEndFacts(s: string)
    ensures TrimEnd(s) == s[..|TrimEnd(s)|]
    ensures TrimEnd(s) == [] || !IsSpace(TrimEnd(s)[|TrimEnd(s)| - 1])
    ensures IsBlank(s[|TrimEnd(s)|..])
  {
    if s != [] && IsSpace(s[|s| - 1]) {
      var front := s[..|s| - 1];
      TrimEndFacts(front);
      var k := |TrimEnd(s)|;
      assert front[..k] == s[..k];
      assert s[k..] == front[k..] + [s[|s| - 1]];
    }
  }

  /** `s.trim()`: a value with no white space at either end. */
  function Trim(s: string): (r: string)
    ensures |r| <= |s|
    ensures r == [] || (!IsSpace(r[0]) && !IsSpace(r[|r| - 1]))
  {
    TrimStartFacts(s);
    TrimEndFacts(TrimStart(s));
    TrimEnd(TrimStart(s))
  }

  /** What `trim` keeps is one contiguous slice of the value, and all it cuts
      on either side is white space. */
  lemma TrimIsSlice(s: string) returns (a: nat)
    ensures a + |Trim(s)| <= |s| && Trim(s) == s[a..a + |Trim(s)|]
    ensures IsBlank(s[..a]) && IsBlank(s[a + |Trim(s)|..])
  {
    var t := TrimStart(s);
    var r := TrimEnd(t);
    TrimStartFacts(s);
    TrimEndFacts(t);
    a := |s| - |t|;
    KeptSlice(s, t, r, a);
  }

  /** A prefix r of the suffix t of s from a, followed in t by white space
      alone, is the slice of s from a, followed in s by white space alone. */
  lemma KeptSlice(s: string, t: string, r: string, a: nat)
    requires a <= |s| && t == s[a..] && |r| <= |t| && r == t[..|r|] && IsBlank(t[|r|..])
    ensures a + |r| <= |s| && r == s[a..a + |r|] && IsBlank(s[a + |r|..])
  {
    assert t[|r|..] == s[a + |r|..];
  }

  /** A trimmed value is empty exactly when the original value is empty or
      made only of white space; this is what "required field left empty" means
      to the handlers that trim. */
  lemma {:induction false} TrimEmptyIffBlank(s: string)
    ensures Trim(s) == [] <==> IsBlank(s)
  {
    var t := TrimStart(s);
    TrimStartFacts(s);
    TrimEndFacts(t);
    if Trim(s) == [] {
      assert IsBlank(t[0..]);
      assert t == [];
      assert s[..|s|] == s;
    } else {
      var r := Trim(s);
      assert !IsSpace(r[0]);
      assert r == t[..|r|];
      assert t == s[|s| - |t|..];
      assert s[|s| - |t|] == r[0];
    }
  }

  /** Trimming keeps a value that has no white space at either end. */
  lemma TrimKeepsTidy(s: string)
    requires s == [] || (!IsSpace(s[0]) && !IsSpace(s[|s| - 1]))
    ensures Trim(s) == s
  {
  }
}
